=== FILE: README.md ===
# VIONA assistant core, modelled in Dafny

VIONA is a personal assistant web app. The user chats with a generative language
model and keeps smart notes, an idea vault and reminders. This project models the
app's decision logic and proves properties of it:

- **The message classifier** (`src/lib/gemini.js`):
  - `detectTone` scores the lower-cased message against three keyword lists and picks
    the mood whose score strictly leads;
  - `detectSmartCommand` is a rule engine: note before idea before reminder. It strips
    the trigger phrase and the `:`/white space after it.
- **The model dispatcher** (`src/lib/gemini.js`):
  - `buildSystemPrompt`, a template with defaults;
  - the request: two opening turns, then the last 20 messages with their roles mapped;
  - `tryModel`'s verdict on one HTTP exchange;
  - `sendMessage`'s fallback over the three candidate models. It returns the first
    success, or a degraded reply that quotes the first error.
- **The chat page** (`src/pages/ChatPage.jsx`): the state is the sessions, the active
  session, the messages, the input and the typing flag. The handlers are `handleSend`
  (with `handleSmartCommand`), `loadSessions`, `createNewSession`, `deleteSession` and
  `handleVoiceTranscript`.
- **The list pages**:
  - reminders (`src/pages/RemindersPage.jsx`): add sorted by time, toggle, delete, the
    filtered view, the active count and the overdue test;
  - ideas (`src/pages/IdeasPage.jsx`): open the dialog, save as edit or insert, delete;
  - notes (`src/pages/NotesPage.jsx`): add, delete.

## How the model is built

The network is a parameter: `network(model, request)` is the `Exchange` one HTTP call
returned, either a transport error or a status with a parsed or unparsable body.

- **Store calls.** Each call to the Supabase store becomes a parameter holding its
  answer: `Some(row)` when the call returned a row without error, `None` otherwise.
- **Effects.** The chat handlers that write also return, as a list of `Effect`s, every
  write to the store and every call to the assistant they make, in order.
  `LoadSessions` only reads: the rows its select returns are a parameter, and it returns
  no effects.
- **Ids and times.** Ids (`crypto.randomUUID`) and times (`new Date()`) are parameters.

Pure code is modelled as functions and lemmas. State that the pages update in place is
modelled as classes (`Notes`, `Ideas`, `Reminders`, `Chat`) with `modifies` clauses.
Each handler is proved against a specification function of the old state. The loops of
`sendMessage` are modelled as loops:

- `BuildRequest` is the `contents` loop;
- `TryInOrder` is the loop over `MODELS`, returning early on the first success.

Both are proved against `Request` and `Fallback`.

`handleSend` is proved against `Send`. `Send` describes two states:

- the state while the reply is awaited (`pending`);
- the state at the end (`after`).

It also gives the ordered list of store calls. `Send` hands the part after the session
is known to `Posted`. The lemmas on `Posted` and `Send` state the promises of the page.

Modules:

| module | file |
|---|---|
| `Options` | `options.dfy` |
| `Store` | `store.dfy` |
| `Text` | `text.dfy` (JavaScript `trim`, `\s`, ASCII `toLowerCase`, `includes`, `indexOf`, `slice`) |
| `Lists` | `lists.dfy` (filter, delete by id, replace by id, stable sort) |
| `Classifier` | `classifier.dfy` |
| `Dispatcher` | `dispatcher.dfy` |
| `NotesPage` | `notes_page.dfy` |
| `IdeasPage` | `ideas_page.dfy` |
| `RemindersPage` | `reminders_page.dfy` |
| `ChatPage` | `chat_page.dfy` |

### Behaviour of the code worth noting

- **Tone ties.** `detectTone` picks a mood only when its score is positive and strictly
  above the other two. Any tie for the highest score gives `calm` (`TieIsCalm`).
- **Which message sets the tone.** `sendMessage` detects the reply's tone on the last
  message of the history, whatever its role. In `handleSend` that is always the user's
  message.
- **The idea prefix.** `detectSmartCommand` removes `^idea[:\s]*` at the start of the
  message as it stands after `save idea` was removed, before any trimming. The test
  `startsWith('idea:')` looks at the trimmed, lower-cased message.
- **The idea update.** `saveIdea` trims the title only to test it. The update and the
  insert send the form as typed.
- **The history snapshot.** `handleSend` builds the history it sends, and decides
  whether this is the session's first message, from the `messages` value captured when
  the send began.

## Model

| member | source | states |
|---|---|---|
| Text.Trim | src/pages/ChatPage.jsx:121 | the result is the infix left once white space is removed from both ends. It neither starts nor ends with white space. It is empty exactly when the input is blank |
| Text.TrimIdempotent | src/lib/gemini.js:82 | trimming the already trimmed message changes nothing |
| Text.ToLower | src/lib/gemini.js:62 | lower-casing keeps the length and maps every character through the ASCII lower-case mapping |
| Text.ToLowerIdempotent | src/lib/gemini.js:82 | lower-casing twice is lower-casing once |
| Text.IndexOf | src/lib/gemini.js:85 | the first occurrence: `p` occurs there, within the text, and nowhere before; `None` exactly when `p` occurs nowhere |
| Text.Contains | src/lib/gemini.js:68 | `includes`: some position holds the pattern, namely the first one `IndexOf` finds; `ContainsAt` and `ContainsInfix` state when it holds, and `ScoreCountsDistinctKeywords` and `DetectSmartCommand` use it for the keyword and trigger tests |
| Text.StartsWith | src/lib/gemini.js:89 | `startsWith`: the text's prefix of the pattern's length is the pattern; `Take` ensures its result is such a prefix, and `AsksForIdea` uses it for the leading `idea:` test |
| Text.Take | src/pages/ChatPage.jsx:130 | `slice(0, n)` is a prefix of at most `n` characters. It is the whole string when the string is short enough, and exactly `n` characters otherwise |
| Text.OrElse | src/lib/gemini.js:20-27 | the `or` default on strings: the fallback exactly when the text is empty; `SystemPromptShowsProfile`, `GreetingAddressesUser` and `DetectSmartCommand` state the defaults it supplies |
| Text.Decimal | src/lib/gemini.js:129 | the status renders as a non-empty string of decimal digits without a leading zero, and those digits denote the status itself (`DigitsValue`) |
| Lists.Filter | src/pages/RemindersPage.jsx:70-74 | an element is kept exactly when it is in the list and passes the test |
| Lists.FilterPartition | src/pages/RemindersPage.jsx:70-74 | a test and its complement split the list: the two lengths add up to its length |
| Lists.FilterAll | src/pages/RemindersPage.jsx:73 | a test that passes everything returns the list itself |
| Lists.FilterAppend | src/pages/NotesPage.jsx:47 | filtering a concatenation filters each part, keeping the order |
| Lists.Without | src/pages/NotesPage.jsx:47 | delete by id: an element stays exactly when it was there and has another id |
| Lists.WithoutAbsent | src/pages/NotesPage.jsx:47 | deleting an id nobody carries changes nothing |
| Lists.WithoutAppend | src/pages/NotesPage.jsx:47 | deleting from a concatenation deletes from each part, in order |
| Lists.WithoutIdempotent | src/pages/RemindersPage.jsx:65-68 | deleting the same id twice deletes nothing more |
| Lists.ReplaceWhere | src/pages/RemindersPage.jsx:61 | replace by id: same length; each position holds the row when its id matches, and the old element otherwise |
| Lists.ReplaceKeepsOthers | src/pages/IdeasPage.jsx:55 | after a replace by id, the elements with other ids are exactly the old ones, in order |
| Lists.InsertionPoint | src/pages/RemindersPage.jsx:44-46 | the stable place of `x`: after every element whose key is no greater, before the first greater one |
| Lists.Insert | src/pages/RemindersPage.jsx:44-46 | inserting gains exactly `x` (as a multiset) and keeps a sorted list sorted |
| Lists.SortBy | src/pages/RemindersPage.jsx:44-46 | the stable sort returns a permutation of the list, sorted by the key |
| Lists.SortSorted | src/pages/RemindersPage.jsx:44-46 | sorting an already sorted list returns it unchanged |
| Lists.AppendThenSort | src/pages/RemindersPage.jsx:44-46 | appending to a sorted list and sorting is inserting at the stable place |
| Lists.FilterKeepsSorted | src/pages/RemindersPage.jsx:67 | filtering keeps a sorted list sorted |
| Lists.WithoutKeepsSorted | src/pages/RemindersPage.jsx:67 | deleting by id keeps a sorted list sorted |
| Classifier.Score | src/lib/gemini.js:68-70 | a score is at most the number of keywords in its list |
| Classifier.ScoreCountsDistinctKeywords | src/lib/gemini.js:68-70 | over a list without repeats, the score is the number of distinct keywords present, not the number of occurrences |
| Classifier.KeywordListsDistinct | src/lib/gemini.js:64-66 | the lists have no repeats and hold 13, 12 and 10 keywords |
| Classifier.ScoreOfNone | src/lib/gemini.js:68-70 | a text with none of the keywords scores zero |
| Classifier.ToneScores | src/lib/gemini.js:62-70 | the three scores are bounded by 13, 12 and 10 |
| Classifier.DetectTone | src/lib/gemini.js:61-76 | each mood is returned exactly when its score is positive and strictly above both others; `calm` exactly when no mood leads |
| Classifier.TieIsCalm | src/lib/gemini.js:72-75 | a tie for the highest score gives `calm` |
| Classifier.EmptyIsCalm | src/lib/gemini.js:150-151 | the empty message (no last message) is calm, since no keyword is empty |
| Classifier.ToneIgnoresCase | src/lib/gemini.js:62 | a message and its lower-cased form get the same tone |
| Classifier.LeadingSeparators | src/lib/gemini.js:85 | the greedy `[:\s]*`: every character it takes is a separator, and the next one is not |
| Classifier.RemoveTrigger | src/lib/gemini.js:85 | the replace never lengthens the text and changes nothing when the phrase does not occur |
| Classifier.RemoveTriggerSplits | src/lib/gemini.js:85 | the replace removes exactly the first case-insensitive occurrence and the run of separators after it. The text before and after is kept |
| Classifier.CutShape | src/lib/gemini.js:85 | what a cut removes is the cut piece and exactly the separators that follow it |
| Classifier.RemoveLeadingIdea | src/lib/gemini.js:90 | the anchored replace never lengthens the text and changes nothing unless the text starts with `idea` |
| Classifier.RemoveLeadingIdeaSplits | src/lib/gemini.js:90 | when the text starts with `idea` in any case, what is left is the text after the word and after the whole run of `:`/white space that follows it |
| Classifier.AsksForNote | src/lib/gemini.js:82-84 | the note test on the trimmed, lower-cased message; `DetectSmartCommand` states that a note is detected exactly when it holds |
| Classifier.AsksForIdea | src/lib/gemini.js:89 | the idea test (`save idea` anywhere, or a leading `idea:`); `DetectSmartCommand` states that an idea is detected exactly when it holds and the note test does not |
| Classifier.AsksForReminder | src/lib/gemini.js:94 | the reminder test; `DetectSmartCommand` states that a reminder is detected exactly when it holds and neither earlier test does |
| Classifier.NoteContent | src/lib/gemini.js:85 | the three note phrases removed in turn and the rest trimmed; `RemoveTriggerSplits` states what each removal cuts |
| Classifier.IdeaContent | src/lib/gemini.js:90 | `save idea` removed, then a leading `idea`, and the rest trimmed; `RemoveTriggerSplits` and `RemoveLeadingIdeaSplits` state what each removal cuts |
| Classifier.DetectSmartCommand | src/lib/gemini.js:81-99 | note, then idea, then reminder, then none, each exactly under its trigger test. A note's or idea's content is the stripped and trimmed text, or the message when that is empty. A reminder carries the message unchanged. Content is never empty |
| Dispatcher.BuildSystemPrompt | src/lib/gemini.js:14-56 | the template with its defaults; `SystemPromptShowsProfile` and `MissingProfileIsEmptyProfile` state what it shows |
| Dispatcher.SystemPromptShowsProfile | src/lib/gemini.js:14-56 | the prompt opens with the persona, whose line about the user's name shows the name (or `friend`). It shows the name (or `Not set`), the goals (or `Not shared yet`), the preferred tone (or `supportive`) and the tone guidelines for that tone |
| Dispatcher.MissingProfileIsEmptyProfile | src/lib/gemini.js:20-27 | a missing profile renders like a profile with every field unset |
| Dispatcher.TryModel | src/lib/gemini.js:104-137 | success exactly when the status is OK, the body parses and the text is non-empty; then the text is the answer. A failed status reports the model's name and the server's message, or `HTTP <status>`. An empty text reports `No response text` |
| Dispatcher.LastN | src/lib/gemini.js:169 | `slice(-20)`: the last `min(20, n)` messages |
| Dispatcher.ApiRoleOf | src/lib/gemini.js:172 | the role mapping of one history entry; `RequestShape` states that `user` stays `user` and every other role becomes `model` |
| Dispatcher.Request | src/lib/gemini.js:156-175 | the request holds the opening turns plus `min(20, n)` entries |
| Dispatcher.RequestKeepsOpening | src/lib/gemini.js:158-166 | the request starts with the opening turns, unchanged |
| Dispatcher.RequestShape | src/lib/gemini.js:168-175 | after the opening come the last messages in order, each with its text. `user` stays `user` and every other role becomes `model` |
| Dispatcher.Greeting | src/lib/gemini.js:163-166 | the scripted model turn; `GreetingAddressesUser` states whom it greets |
| Dispatcher.OpeningPrompt | src/lib/gemini.js:153-161 | the system prompt for the profile's own tone preference, followed by the request to begin; `SystemPromptShowsProfile` states what it shows |
| Dispatcher.Opening | src/lib/gemini.js:153-166 | the two scripted turns; `RequestForShape` states that the request starts with the prompt as a `user` turn and the greeting as a `model` turn |
| Dispatcher.RequestFor | src/lib/gemini.js:153-175 | the `contents` array for a profile; `RequestForShape` and `RequestShape` state its length, its opening and its history, and `SendMessage` ensures it is what every attempt sends |
| Dispatcher.GreetingAddressesUser | src/lib/gemini.js:165 | the greeting opens with `Hey <name>!`, or with `Hey there!` when there is no profile or no name |
| Dispatcher.RequestForShape | src/lib/gemini.js:156-175 | the request holds `2 + min(20, n)` entries: the system prompt as a `user` turn, then the greeting as a `model` turn |
| Dispatcher.FailureHint | src/lib/gemini.js:198 | the rate-limit hint exactly when the first error mentions `Quota`, otherwise the first error itself |
| Dispatcher.Degraded | src/lib/gemini.js:197-200 | the reply when every model failed; `DegradedQuotesHint` states that it quotes the hint |
| Dispatcher.DegradedQuotesHint | src/lib/gemini.js:197-200 | the degraded reply contains the hint |
| Dispatcher.LastContent | src/lib/gemini.js:150 | the content of the last message, or the empty string; `ToneIgnoresNetwork` and `EmptyIsCalm` state the tone it gives |
| Dispatcher.Outcomes | src/lib/gemini.js:179-193 | one outcome per candidate model, each `tryModel`'s verdict on that model's exchange |
| Dispatcher.FirstOk | src/lib/gemini.js:179-193 | the first success, with only failures before it; `None` exactly when every attempt failed |
| Dispatcher.FirstOkIs | src/lib/gemini.js:179-187 | a success preceded only by failures is the first success |
| Dispatcher.Fallback | src/lib/gemini.js:177-200 | the reply once every outcome is known; `FirstSuccessAnswers`, `AllFailedDegrades` and `ToneAndAttempts` state it |
| Dispatcher.DispatchWith | src/lib/gemini.js:142-201 | `sendMessage` as a function of its inputs; `NoKeyNoRequest` and `ToneIgnoresNetwork` state its two branches, and `SendWithOpening` is proved against it |
| Dispatcher.Dispatch | src/lib/gemini.js:142-201 | `sendMessage`'s reply and the models tried, for a profile; `SendMessage` is proved against it, and `NoKeyNoRequest`, `FirstSuccessAnswers`, `AllFailedDegrades` and `ToneAndAttempts` state its cases |
| Dispatcher.BuildRequest | src/lib/gemini.js:156-175 | the `contents` loop builds the opening turns followed by one entry per recent message |
| Dispatcher.TryInOrder | src/lib/gemini.js:177-200 | the loop over the models records each model as it tries it, and returns the reply and the models tried that `Fallback` specifies |
| Dispatcher.SendWithOpening | src/lib/gemini.js:143-200 | the reply and the models tried are what `DispatchWith` specifies. With a key, every attempt sent the request built from the opening and the last 20 messages. Without one, nothing is sent |
| Dispatcher.SendMessage | src/lib/gemini.js:142-201 | the reply and the models tried are those `Dispatch` specifies. With a key, the request sent is the one built from the profile's opening turns and the last 20 messages |
| Dispatcher.NoKeyNoRequest | src/lib/gemini.js:143-148 | without an API key: the configuration warning, tone `calm`, no model tried |
| Dispatcher.FirstSuccessAnswers | src/lib/gemini.js:179-187 | the first model that succeeds answers with its text. It and the models before it were tried, and no later one |
| Dispatcher.AllFailedDegrades | src/lib/gemini.js:195-200 | when every model fails, all of them were tried and the reply is the degraded message about the first error |
| Dispatcher.ToneAndAttempts | src/lib/gemini.js:178-200 | whatever the outcomes, the reply has the detected tone, and the models tried are a non-empty prefix of the candidates |
| Dispatcher.ToneIgnoresNetwork | src/lib/gemini.js:150-151 | with a key, the reply's tone is `detectTone` of the last message's content, whatever the network answers |
| NotesPage.Drafted | src/pages/NotesPage.jsx:30-34 | nothing for a blank draft. Otherwise a `manual` note whose content is the trimmed draft, non-empty, with no white space at either end |
| NotesPage.Prepend | src/pages/NotesPage.jsx:39 | the new note comes first, then the old list unchanged |
| NotesPage.DeleteUndoesAdd | src/pages/NotesPage.jsx:39-47 | deleting a note just added under a fresh id gives back the old list |
| NotesPage.Notes.constructor | src/pages/NotesPage.jsx:9-11 | no notes, dialog closed, empty draft |
| NotesPage.Notes.AddNote | src/pages/NotesPage.jsx:29-43 | the request is the drafted note. On a stored row it is prepended, the draft cleared and the dialog closed. A blank draft or a failed insert changes nothing |
| NotesPage.Notes.DeleteNote | src/pages/NotesPage.jsx:45-48 | the notes with that id go, the rest keep their order. Nothing else changes |
| IdeasPage.FormOf | src/pages/IdeasPage.jsx:33-35 | the form copies the title and content; the category is the idea's, or `general` when it has none, so it is never empty |
| IdeasPage.SaveRequest | src/pages/IdeasPage.jsx:44-62 | nothing for a blank title. Otherwise the untrimmed form is sent, as an update of the edited idea exactly when one is being edited, else as an insert |
| IdeasPage.OpenThenSaveWritesBack | src/pages/IdeasPage.jsx:32-55 | opening an idea that has a title and saving it untouched writes its own fields back to its row; when it has no category, the row gets `general` |
| IdeasPage.EditKeepsOthers | src/pages/IdeasPage.jsx:55 | an edit keeps the length, and the ideas with other ids are unchanged and in order |
| IdeasPage.Ideas.constructor | src/pages/IdeasPage.jsx:11-14 | no ideas, dialog closed, nothing edited, the empty form |
| IdeasPage.Ideas.OpenModal | src/pages/IdeasPage.jsx:32-41 | editing an idea loads its form and id, otherwise the empty form and no id. The dialog opens and the list is kept |
| IdeasPage.Ideas.SaveIdea | src/pages/IdeasPage.jsx:43-72 | a blank title changes nothing. Otherwise the dialog closes and the form and edited id reset, even when the store fails. A stored edit replaces the edited idea and a stored insert is prepended. Without a row the list is kept |
| IdeasPage.Ideas.DeleteIdea | src/pages/IdeasPage.jsx:74-77 | the ideas with that id go, the rest keep their order. Nothing else changes |
| RemindersPage.AddRequest | src/pages/RemindersPage.jsx:31-39 | nothing without a non-blank text or a time. Otherwise the trimmed, non-empty text and the chosen time |
| RemindersPage.Visible | src/pages/RemindersPage.jsx:70-74 | the view shows a reminder exactly when it is in the list and passes the filter |
| RemindersPage.Shown | src/pages/RemindersPage.jsx:70-74 | the filter's test: `active` lets through what is not done, `done` what is done, `all` everything; `Visible` and `ViewsPartition` state the views it gives |
| RemindersPage.ViewsPartition | src/pages/RemindersPage.jsx:70-74 | the active and done views split the list; `all` is the list itself |
| RemindersPage.ActiveCount | src/pages/RemindersPage.jsx:88 | the header count is the number of reminders not done, that is the list's length minus the done view's |
| RemindersPage.IsOverdue | src/pages/RemindersPage.jsx:120 | not done and due before now; `OverdueIsActive` states which view shows it |
| RemindersPage.OverdueIsActive | src/pages/RemindersPage.jsx:120 | an overdue reminder (not done, time passed) shows under `active` and never under `done` |
| RemindersPage.AddInsertsInOrder | src/pages/RemindersPage.jsx:44-46 | on a list sorted by time, adding and sorting inserts the new reminder after those due no later |
| RemindersPage.Reminders.constructor | src/pages/RemindersPage.jsx:9-13 | no reminders, dialog closed, the empty form, the `active` filter |
| RemindersPage.Reminders.AddReminder | src/pages/RemindersPage.jsx:30-50 | the request is `AddRequest` of the form. On a stored row the list becomes the old list plus the row, sorted by time, and the form resets and the dialog closes. A guard or a failed insert changes nothing |
| RemindersPage.Reminders.ToggleDone | src/pages/RemindersPage.jsx:52-63 | asks for the flipped flag. A returned row replaces the reminders with that id, and without one nothing changes |
| RemindersPage.Reminders.DeleteReminder | src/pages/RemindersPage.jsx:65-68 | the reminders with that id go. The rest keep their order and stay sorted by time when they were |
| ChatPage.CommandEffects | src/pages/ChatPage.jsx:102-118 | a note saves one `chat` note with the content. An idea saves one idea under the content's first 50 characters: the whole content when it is that short, exactly 50 characters otherwise. A reminder saves nothing |
| ChatPage.SmartEffects | src/pages/ChatPage.jsx:142-171 | the store calls of the command the message asks for, none when it asks for none; `PostedEffectOrder` places them between the user message and the assistant call |
| ChatPage.Retitled | src/pages/ChatPage.jsx:206-210 | the sessions keep their order, ids and times. The matching sessions take the title and the others are unchanged |
| ChatPage.RetitleTwice | src/pages/ChatPage.jsx:206-210 | setting a title twice leaves the second |
| ChatPage.Posted | src/pages/ChatPage.jsx:140-211 | a send once the session is known; `PostedAddsTwoMessages`, `PostedEffectOrder`, `PostedSavesReplyLast` and `PostedTitlesFirstMessage` state it |
| ChatPage.Answered | src/pages/ChatPage.jsx:187-210 | the state once the reply has come; `PostedAddsTwoMessages` and `PostedTitlesFirstMessage` state it |
| ChatPage.Send | src/pages/ChatPage.jsx:120-212 | `handleSend` as a function of the old state; `SendStopsEarly`, `SendCreatesSession`, `SendAppendsUserThenReply`, `ReplyKeepsMessageTone` and `NoKeyRepliesWithWarning` state it |
| ChatPage.PostedAddsTwoMessages | src/pages/ChatPage.jsx:145-188 | a send adds the user message while the reply is awaited, then the assistant's reply with its tone, in the same session. The input is cleared. Typing is on while waiting and off afterwards |
| ChatPage.PostedEffectOrder | src/pages/ChatPage.jsx:160-175 | the user message is saved first, then the smart command's rows. Then the assistant is asked with the pre-send messages plus the user message |
| ChatPage.PostedSavesReplyLast | src/pages/ChatPage.jsx:190-211 | the reply is saved next. Only the first message of a session is followed by the title update, and nothing else follows |
| ChatPage.PostedTitlesFirstMessage | src/pages/ChatPage.jsx:199-211 | only when the session had no messages does it take the first 40 characters as its title. The other sessions and later sends leave the list alone |
| ChatPage.SendStopsEarly | src/pages/ChatPage.jsx:121-134 | a blank input or a pending reply changes nothing and calls nothing. A failed session insert leaves the state as it was |
| ChatPage.SendCreatesSession | src/pages/ChatPage.jsx:126-138 | without an active session, the stored session goes first in the list and becomes active. Its insert is the first call, titled with the first 40 characters of the trimmed message |
| ChatPage.SendAppendsUserThenReply | src/pages/ChatPage.jsx:141-187 | the earlier messages stay in place; the user message (trimmed text, detected tone) and then the reply are appended after them, both in the active session |
| ChatPage.ReplyKeepsMessageTone | src/pages/ChatPage.jsx:175-185 | with a key, the last message is the assistant's reply, carrying the tone of the user's message whatever the network answered |
| ChatPage.NoKeyRepliesWithWarning | src/pages/ChatPage.jsx:175-185 | without a key, the last message is the assistant's configuration warning, in `calm` |
| ChatPage.WithTranscript | src/pages/ChatPage.jsx:222 | an empty input becomes the transcript. Otherwise it is the input, a space, then the transcript |
| ChatPage.TranscriptsAccumulate | src/pages/ChatPage.jsx:222 | two dictations in a row read as one, joined by a space |
| ChatPage.Chat.constructor | src/pages/ChatPage.jsx:19-23 | no sessions, no active session, no messages, empty input, not typing |
| ChatPage.Chat.LoadSessions | src/pages/ChatPage.jsx:46-59 | the stored sessions (or none) replace the list. The first becomes active when there is one. On a newest-first answer the active session is the newest |
| ChatPage.Chat.CreateNewSession | src/pages/ChatPage.jsx:71-84 | asks for a `New Chat` session. A stored one goes first, becomes active and starts with no messages. Otherwise nothing changes |
| ChatPage.Chat.DeleteSessionById | src/pages/ChatPage.jsx:86-95 | deletes the messages, then the session. The sessions with that id leave the list in order. Only when it was active are the active id and messages cleared |
| ChatPage.Chat.SelectSession | src/pages/ChatPage.jsx:276-279 | choosing a session in the drawer makes it active; the sessions, messages, input and typing flag are unchanged |
| ChatPage.Chat.HandleVoiceTranscript | src/pages/ChatPage.jsx:221-224 | the transcript is added to the input as `WithTranscript` says; nothing else changes |
| ChatPage.Chat.HandleSend | src/pages/ChatPage.jsx:120-212 | the state while waiting, the final state and the ordered store calls are those `Send` specifies for the old state |
| ChatPage.Chat.Post | src/pages/ChatPage.jsx:140-211 | once a session is active, the two states and the calls are those `Posted` specifies, the reply being `sendMessage`'s for the pre-send messages plus the user message |
| ChatPage.Chat.ShowReply | src/pages/ChatPage.jsx:187-210 | the reply is appended and typing goes off. On a first message the session takes its title |

## Left out

- The HTTP request to the generative API is not modelled (URL, headers, JSON encoding,
  `fetch`). Neither is its generation and safety settings: they are opaque
  floating-point constants. One exchange is the `network` parameter's answer.
- A response body that fails to parse becomes an `Unparsable` body carrying the parser's
  message, which `tryModel` rethrows. A transport failure is a `NetworkError` with its
  message.
- Supabase is not modelled: its queries, filters by `user_id`, and the columns the code
  never reads (`user_id`, `updated_at`). Each store call is its answer, passed in as a
  parameter.
- The `updated_at` that the title update writes, and the `updated_at` of an idea
  update, are left out: both come from the clock.
- `loadMessages`, `loadReminders`, `loadIdeas` and `loadNotes` are left out: each only
  copies the store's answer into the list, or `[]`.
- ChatPage.Chat.LoadSessions, ChatPage.Chat.CreateNewSession and ChatPage.Chat.HandleSend:
  the effect on `activeSessionId` that reloads the messages is not modelled. Each of
  these handlers can change the active session: `loadSessions` selects the first one,
  and `createNewSession` and the first send without a session select the new one. The
  app then reloads that session's messages from the store. The model keeps `messages`
  as the handler leaves it. So it does not capture that the reload can replace the
  message list while a send without a session is under way, including the user message
  appended before the reply.
- The `loading` flags, the toast and its timer, `showDrawer`, focus, scrolling and
  rendering are left out: they are user-interface effects.
- `handleKeyDown`, which calls `handleSend` on Enter, is left out: it is keyboard
  handling.
- `console` logging is left out. It includes the warning that prints a model object
  where its name was meant.
- Overlapping sends are not modelled: one `handleSend` runs at a time. The state
  updates of an earlier send cannot interleave.
- ChatPage.Chat.HandleSend, ChatPage.Send and ChatPage.Chat.Post: a send is one atomic
  step. The session drawer stays usable while the reply is awaited: only the input,
  voice and send controls are disabled (ChatPage.jsx:380-386). So `createNewSession`,
  choosing a session and `deleteSession` can run between the user message
  (ChatPage.jsx:155) and the reply and retitle (ChatPage.jsx:187, 206). The model assumes
  they do not. It does not capture that the reply's `prev =>` update then lands on
  whatever list is shown, which can belong to another session or to a session just
  deleted, while the reply is still stored under the original session.
- ChatPage.Chat.SelectSession: closing the drawer and the reload of the chosen
  session's messages are not modelled (see the `activeSessionId` line above).
- Text.ToLower: only ASCII letters are lower-cased. Unicode case mapping, and the
  case-insensitive matching of the regular expressions beyond ASCII, are not modelled.
- Text.Take: works on characters, not on UTF-16 code units as JavaScript's `slice`
  does. A title cut in the middle of a surrogate pair is not modelled.
- RemindersPage.Reminders.AddReminder: the time is an integer that the form already
  holds. Parsing `remind_at`, the `RangeError` of an invalid date, and the `NaN`
  comparisons of the sort are not modelled.
- The overdue test takes the current time as a parameter instead of reading the clock.
- `Opening`: the rendered system prompt is the template's text. Proofs about the chat
  page take the opening turns as a parameter, `Opening(profile)` in the app.
- The voice input component (speech recognition) and the auth context are not part of
  this model. Nor are the routing, the profile and settings pages, or the login and
  signup pages.

=== FILE: chat_page.dfy ===
/**
 * The chat page (`src/pages/ChatPage.jsx`): the list of chat sessions, the active one,
 * its messages, the text being typed and the flag that a reply is pending, and the
 * handlers that change them. Every store call a handler makes, and the call to the
 * assistant, is reported as an `Effect`, in the order the handler makes it.
 */
module ChatPage {
  import opened Options
  import opened Text
  import opened Lists
  import opened Store
  import opened Classifier
  import opened Dispatcher

  /** A row of `chat_sessions`. */
  datatype Session = Session(id: Id, title: string, updatedAt: Time)

  /** A store call, or the call to the assistant, in the order the handler makes it. */
  datatype Effect =
    | InsertSession(title: string)
    | InsertMessage(sessionId: Id, role: Role, content: string, tone: Tone)
    | InsertNote(content: string, source: string)
    | InsertIdea(title: string, content: string)
    | Ask(history: seq<Message>)
    | Retitle(sessionId: Id, title: string)
    | DeleteMessages(sessionId: Id)
    | DeleteSession(sessionId: Id)

  /** The page's state. */
  datatype ChatState = ChatState(
    sessions: seq<Session>, activeSessionId: Option<Id>, messages: seq<Message>,
    input: string, isTyping: bool)

  const TitleLength: nat := 40
  const IdeaTitleLength: nat := 50

  function SessionId(s: Session): Id { s.id }

  /** Sessions newest first, the order `loadSessions` asks the store for. */
  function Age(s: Session): int { -s.updatedAt }

  /**
   * `handleSmartCommand`: a note is saved to the smart notes with source `chat`, an idea
   * to the idea vault under the first 50 characters of its text; a reminder saves nothing.
   */
  function CommandEffects(command: Command): (r: seq<Effect>)
    ensures command.kind == ReminderCommand <==> r == []
    ensures command.kind == NoteCommand ==> r == [InsertNote(command.content, "chat")]
    ensures command.kind == IdeaCommand ==>
      r == [InsertIdea(Take(command.content, IdeaTitleLength), command.content)]
      && |r[0].title| <= IdeaTitleLength && StartsWith(command.content, r[0].title)
      && (|command.content| <= IdeaTitleLength ==> r[0].title == command.content)
      && (|command.content| > IdeaTitleLength ==> |r[0].title| == IdeaTitleLength)
  {
    match command.kind
    case NoteCommand => [InsertNote(command.content, "chat")]
    case IdeaCommand => [InsertIdea(Take(command.content, IdeaTitleLength), command.content)]
    case ReminderCommand => []
  }

  /** What `handleSend` does for a message that asks for a command, if any. */
  function SmartEffects(trimmed: string): seq<Effect> {
    match DetectSmartCommand(trimmed)
    case None => []
    case Some(command) => CommandEffects(command)
  }

  /**
   * The sessions after the title of session `id` is set: that session gets the title,
   * every other one is left as it was, and the order is kept.
   */
  function Retitled(sessions: seq<Session>, id: Id, title: string): (r: seq<Session>)
    ensures |r| == |sessions|
    ensures forall i :: 0 <= i < |r| ==> r[i].id == sessions[i].id && r[i].updatedAt == sessions[i].updatedAt
    ensures forall i :: 0 <= i < |r| && sessions[i].id == id ==> r[i].title == title
    ensures forall i :: 0 <= i < |r| && sessions[i].id != id ==> r[i] == sessions[i]
  {
    if sessions == [] then []
    else
      [if sessions[0].id == id then sessions[0].(title := title) else sessions[0]]
      + Retitled(sessions[1..], id, title)
  }

  /** Setting a title twice leaves the second one. */
  lemma {:induction false} RetitleTwice(sessions: seq<Session>, id: Id, first: string, second: string)
    ensures Retitled(Retitled(sessions, id, first), id, second) == Retitled(sessions, id, second)
  {
    if sessions != [] {
      RetitleTwice(sessions[1..], id, first, second);
      assert Retitled(sessions, id, first)[1..] == Retitled(sessions[1..], id, first);
    }
  }

  /** What one call of `handleSend` leads to. */
  datatype Sent = Sent(pending: ChatState, after: ChatState, effects: seq<Effect>)

  /**
   * `handleSend` once the message has a session: `user` is the user's message, already in
   * the active session and carrying its tone, `smart` the store calls of the smart command
   * it asks for, and `reply` the assistant's answer to the messages as they were plus
   * `user`. The user message is shown and saved, the command carried out, the assistant
   * asked, and its reply shown and saved; the first message of a session also gives the
   * session its title. `pending` is the state while the reply is awaited, `after` the
   * state at the end.
   */
  function Posted(s: ChatState, user: Message, smart: seq<Effect>, reply: Reply,
                  replyId: Id, repliedAt: Time): Sent
    requires s.activeSessionId == Some(user.sessionId) && user.tone.Some?
  {
    var sid := user.sessionId;
    var title := Take(user.content, TitleLength);
    var history := s.messages + [user];
    var first := s.messages == [];
    var asked := [InsertMessage(sid, User, user.content, user.tone.value)] + smart + [Ask(history)];
    var answered := asked + [InsertMessage(sid, Assistant, reply.content, reply.tone)];
    var pending := ChatState(s.sessions, s.activeSessionId, history, "", true);
    Sent(
      pending,
      Answered(pending, reply, first, title, replyId, repliedAt),
      if first then answered + [Retitle(sid, title)] else answered)
  }

  /**
   * The state once the reply `reply` has come, `s` being the state while it was awaited:
   * the reply is shown in the active session, the typing indicator goes off, and for the
   * first message of a session the session takes the title `title`.
   */
  function Answered(s: ChatState, reply: Reply, first: bool, title: string, replyId: Id, repliedAt: Time): ChatState
    requires s.activeSessionId.Some?
  {
    var sid := s.activeSessionId.value;
    var assistant := Message(replyId, sid, Assistant, reply.content, Some(reply.tone), repliedAt);
    ChatState(if first then Retitled(s.sessions, sid, title) else s.sessions,
              s.activeSessionId, s.messages + [assistant], s.input, false)
  }

  /**
   * `handleSend`, as a specification. Nothing happens for a blank message or while a reply
   * is pending. Without an active session one is first created, titled after the message,
   * and when the store returns none (`created`) the send stops there. Then the message,
   * trimmed and with its detected tone, is posted (`Posted`), the assistant being asked with
   * `opening`, `apiKey` and `network`: `opening` is the opening turns `sendMessage` renders
   * for the user's profile (`Opening(profile)`). `userId` and `replyId` are the two message
   * ids, `sentAt` and `repliedAt` their times.
   */
  function Send(s: ChatState, created: Option<Session>, opening: seq<Content>, apiKey: string,
                network: (Model, seq<Content>) -> Exchange,
                userId: Id, replyId: Id, sentAt: Time, repliedAt: Time): Sent
  {
    var trimmed := Trim(s.input);
    var title := Take(trimmed, TitleLength);
    if trimmed == [] || s.isTyping then Sent(s, s, [])
    else if s.activeSessionId.None? && created.None? then Sent(s, s, [InsertSession(title)])
    else
      var joined :=
        if s.activeSessionId.Some? then s
        else s.(sessions := [created.value] + s.sessions, activeSessionId := Some(created.value.id));
      var user := Message(userId, joined.activeSessionId.value, User, trimmed, Some(DetectTone(trimmed)), sentAt);
      var reply := DispatchWith(opening, s.messages + [user], apiKey, network).reply;
      var posted := Posted(joined, user, SmartEffects(trimmed), reply, replyId, repliedAt);
      if s.activeSessionId.Some? then posted
      else Sent(posted.pending, posted.after, [InsertSession(title)] + posted.effects)
  }

  /**
   * A send that goes ahead adds exactly two messages to the active session: the user's,
   * shown while the reply is awaited, and then the assistant's reply with its tone. The
   * text field is cleared, and the typing indicator is on while the reply is awaited and
   * off afterwards.
   */
  lemma PostedAddsTwoMessages(s: ChatState, user: Message, smart: seq<Effect>, reply: Reply,
                              replyId: Id, repliedAt: Time)
    requires s.activeSessionId == Some(user.sessionId) && user.tone.Some?
    ensures var r := Posted(s, user, smart, reply, replyId, repliedAt);
      && r.pending.messages == s.messages + [user]
      && |r.after.messages| == |s.messages| + 2
      && r.after.messages[..|s.messages| + 1] == r.pending.messages
      && r.after.messages[|s.messages| + 1]
         == Message(replyId, user.sessionId, Assistant, reply.content, Some(reply.tone), repliedAt)
    ensures var r := Posted(s, user, smart, reply, replyId, repliedAt);
      && r.pending.input == "" && r.after.input == ""
      && r.pending.isTyping && !r.after.isTyping
      && r.pending.activeSessionId == r.after.activeSessionId == s.activeSessionId
  {
    var r := Posted(s, user, smart, reply, replyId, repliedAt);
    SplitLast(r.after.messages);
  }

  /**
   * The store calls of a send, in order: the user message is saved first, then the smart
   * command's rows, then the assistant is asked with the history shown while waiting.
   */
  lemma PostedEffectOrder(s: ChatState, user: Message, smart: seq<Effect>, reply: Reply,
                          replyId: Id, repliedAt: Time)
    requires s.activeSessionId == Some(user.sessionId) && user.tone.Some?
    ensures var r := Posted(s, user, smart, reply, replyId, repliedAt);
      && |r.effects| >= |smart| + 3
      && r.effects[0] == InsertMessage(user.sessionId, User, user.content, user.tone.value)
      && r.effects[1..|smart| + 1] == smart
      && r.effects[|smart| + 1] == Ask(r.pending.messages)
  {
    var r := Posted(s, user, smart, reply, replyId, repliedAt);
    var asked := [InsertMessage(user.sessionId, User, user.content, user.tone.value)] + smart + [Ask(s.messages + [user])];
    assert asked <= r.effects;
    FramedPrefix(r.effects, asked[0], smart, asked[|smart| + 1]);
  }

  /** The pieces of a list that starts with `a`, then `m`, then `b`. */
  lemma FramedPrefix<T>(xs: seq<T>, a: T, m: seq<T>, b: T)
    requires [a] + m + [b] <= xs
    ensures |xs| >= |m| + 2 && xs[0] == a && xs[1..|m| + 1] == m && xs[|m| + 1] == b
  {
    assert xs[1..|m| + 1] == ([a] + m + [b])[1..|m| + 1];
  }

  /**
   * After the assistant is asked, its reply is saved; only the first message of a session
   * then ends with setting the session's title, and nothing else follows.
   */
  lemma PostedSavesReplyLast(s: ChatState, user: Message, smart: seq<Effect>, reply: Reply,
                             replyId: Id, repliedAt: Time)
    requires s.activeSessionId == Some(user.sessionId) && user.tone.Some?
    ensures var r := Posted(s, user, smart, reply, replyId, repliedAt);
      && |r.effects| == |smart| + 3 + (if s.messages == [] then 1 else 0)
      && r.effects[|smart| + 2] == InsertMessage(user.sessionId, Assistant, reply.content, reply.tone)
      && (s.messages == [] ==> r.effects[|smart| + 3] == Retitle(user.sessionId, Take(user.content, TitleLength)))
  {
  }

  /**
   * Only the first message of a session names it: the active session takes the first
   * `TitleLength` characters of the message and every other session is left as it was;
   * later messages leave the sessions alone.
   */
  lemma PostedTitlesFirstMessage(s: ChatState, user: Message, smart: seq<Effect>, reply: Reply,
                                 replyId: Id, repliedAt: Time)
    requires s.activeSessionId == Some(user.sessionId) && user.tone.Some?
    ensures var r := Posted(s, user, smart, reply, replyId, repliedAt);
      && |r.after.sessions| == |s.sessions|
      && (s.messages != [] ==> r.after.sessions == s.sessions)
      && (s.messages == [] ==> forall i :: 0 <= i < |s.sessions| ==>
            if s.sessions[i].id == user.sessionId
            then r.after.sessions[i] == s.sessions[i].(title := Take(user.content, TitleLength))
            else r.after.sessions[i] == s.sessions[i])
  {
  }

  /**
   * A blank message, or one sent while a reply is pending, changes nothing and calls
   * nothing; without an active session and without a session returned by the store, only
   * the session insert is attempted and the state is left as it was.
   */
  lemma SendStopsEarly(s: ChatState, created: Option<Session>, opening: seq<Content>, apiKey: string,
                       network: (Model, seq<Content>) -> Exchange,
                       userId: Id, replyId: Id, sentAt: Time, repliedAt: Time)
    requires Blank(s.input) || s.isTyping || (s.activeSessionId.None? && created.None?)
    ensures var r := Send(s, created, opening, apiKey, network, userId, replyId, sentAt, repliedAt);
      && r.pending == s && r.after == s
      && (Blank(s.input) || s.isTyping ==> r.effects == [])
      && (!Blank(s.input) && !s.isTyping ==> r.effects == [InsertSession(Take(Trim(s.input), TitleLength))])
  {
  }

  /**
   * Without an active session, the session the store returns is put in front of the list
   * and becomes the active one before the message is posted; its insert is the first
   * store call, under the first `TitleLength` characters of the trimmed message.
   */
  lemma SendCreatesSession(s: ChatState, session: Session, opening: seq<Content>, apiKey: string,
                           network: (Model, seq<Content>) -> Exchange,
                           userId: Id, replyId: Id, sentAt: Time, repliedAt: Time)
    requires !Blank(s.input) && !s.isTyping && s.activeSessionId.None?
    ensures var r := Send(s, Some(session), opening, apiKey, network, userId, replyId, sentAt, repliedAt);
      && r.pending.activeSessionId == r.after.activeSessionId == Some(session.id)
      && r.pending.sessions == [session] + s.sessions
      && |r.after.sessions| == |s.sessions| + 1 && r.after.sessions[0].id == session.id
      && r.effects[0] == InsertSession(Take(Trim(s.input), TitleLength))
  {
  }

  /**
   * A send that goes ahead keeps the earlier messages and appends the user message, then
   * the assistant's reply, both in the session that is active afterwards; the user message is the trimmed text with the
   * tone detected in it.
   */
  lemma SendAppendsUserThenReply(s: ChatState, created: Option<Session>, opening: seq<Content>, apiKey: string,
                                 network: (Model, seq<Content>) -> Exchange,
                                 userId: Id, replyId: Id, sentAt: Time, repliedAt: Time)
    requires !Blank(s.input) && !s.isTyping && (s.activeSessionId.Some? || created.Some?)
    ensures var r := Send(s, created, opening, apiKey, network, userId, replyId, sentAt, repliedAt);
      var n := |s.messages|;
      && |r.after.messages| == n + 2 && r.after.messages[..n] == s.messages
      && r.after.activeSessionId.Some?
      && r.after.messages[n].role == User && r.after.messages[n + 1].role == Assistant
      && r.after.messages[n].content == Trim(s.input)
      && r.after.messages[n].tone == Some(DetectTone(Trim(s.input)))
      && r.after.messages[n].sessionId == r.after.messages[n + 1].sessionId == r.after.activeSessionId.value
  {
  }

  /**
   * With an API key, the assistant's reply, the last message after the send, carries the
   * tone detected in the user's message, whatever the network answered.
   */
  lemma ReplyKeepsMessageTone(s: ChatState, created: Option<Session>, opening: seq<Content>, apiKey: string,
                              network: (Model, seq<Content>) -> Exchange,
                              userId: Id, replyId: Id, sentAt: Time, repliedAt: Time)
    requires !Blank(s.input) && !s.isTyping && (s.activeSessionId.Some? || created.Some?)
    requires apiKey != ""
    ensures var r := Send(s, created, opening, apiKey, network, userId, replyId, sentAt, repliedAt);
      var shown := r.after.messages[|r.after.messages| - 1];
      shown.role == Assistant && shown.tone == Some(DetectTone(Trim(s.input)))
  {
  }

  /**
   * Without an API key the send still goes ahead: the assistant's reply, the last message
   * after the send, is the configuration warning, in a calm tone.
   */
  lemma NoKeyRepliesWithWarning(s: ChatState, created: Option<Session>, opening: seq<Content>,
                                network: (Model, seq<Content>) -> Exchange,
                                userId: Id, replyId: Id, sentAt: Time, repliedAt: Time)
    requires !Blank(s.input) && !s.isTyping && (s.activeSessionId.Some? || created.Some?)
    ensures var r := Send(s, created, opening, "", network, userId, replyId, sentAt, repliedAt);
      var shown := r.after.messages[|r.after.messages| - 1];
      shown.role == Assistant && shown.content == ConfigWarning && shown.tone == Some(Calm)
  {
  }

  /** `setInput(prev => prev ? prev + ' ' + transcript : transcript)`. */
  function WithTranscript(prev: string, transcript: string): (r: string)
    ensures prev == "" ==> r == transcript
    ensures prev != "" ==> |r| == |prev| + 1 + |transcript| && r[..|prev|] == prev && r[|prev|] == ' '
    ensures r[|r| - |transcript|..] == transcript
  {
    if prev != "" then prev + " " + transcript else transcript
  }

  /** Two dictations in a row read as one, with a space between them. */
  lemma TranscriptsAccumulate(prev: string, a: string, b: string)
    requires a != ""
    ensures WithTranscript(WithTranscript(prev, a), b) == WithTranscript(prev, a + " " + b)
  {
  }

  class Chat {
    var sessions: seq<Session>
    var activeSessionId: Option<Id>
    var messages: seq<Message>
    var input: string
    var isTyping: bool

    function State(): ChatState
      reads this
    {
      ChatState(sessions, activeSessionId, messages, input, isTyping)
    }

    constructor ()
      ensures State() == ChatState([], None, [], "", false)
    {
      sessions := [];
      activeSessionId := None;
      messages := [];
      input := "";
      isTyping := false;
    }

    /**
     * `loadSessions`: the store's sessions, newest first, replace the list (nothing, when
     * it answers with nothing), and the first of them becomes the active session.
     */
    method LoadSessions(data: Option<seq<Session>>)
      modifies this
      ensures sessions == if data.Some? then data.value else []
      ensures data.Some? && data.value != [] ==> activeSessionId == Some(data.value[0].id)
      ensures data.None? || data.value == [] ==> activeSessionId == old(activeSessionId)
      ensures data.Some? && data.value != [] && SortedBy(data.value, Age) ==>
        forall t :: t in sessions ==> t.updatedAt <= sessions[0].updatedAt
      ensures messages == old(messages) && input == old(input) && isTyping == old(isTyping)
    {
      sessions := if data.Some? then data.value else [];
      if data.Some? && |data.value| > 0 {
        activeSessionId := Some(data.value[0].id);
      }
    }

    /**
     * `createNewSession`: asks for a session titled `New Chat`; when the store returns it,
     * it goes to the front of the list and becomes the active, empty, session.
     */
    method CreateNewSession(created: Option<Session>) returns (effects: seq<Effect>)
      modifies this
      ensures effects == [InsertSession("New Chat")]
      ensures created.Some? ==>
        sessions == [created.value] + old(sessions) && activeSessionId == Some(created.value.id)
        && messages == []
      ensures created.None? ==>
        sessions == old(sessions) && activeSessionId == old(activeSessionId) && messages == old(messages)
      ensures input == old(input) && isTyping == old(isTyping)
    {
      effects := [InsertSession("New Chat")];
      if created.Some? {
        sessions := [created.value] + sessions;
        activeSessionId := Some(created.value.id);
        messages := [];
      }
    }

    /**
     * `deleteSession`: deletes the session's messages, then the session; the sessions with
     * that id leave the list, the others keep their order. Only when the deleted session
     * was the active one is there no active session and no message any more.
     */
    method DeleteSessionById(sessionId: Id) returns (effects: seq<Effect>)
      modifies this
      ensures effects == [DeleteMessages(sessionId), DeleteSession(sessionId)]
      ensures sessions == Without(old(sessions), SessionId, sessionId)
      ensures old(activeSessionId) == Some(sessionId) ==> activeSessionId == None && messages == []
      ensures old(activeSessionId) != Some(sessionId) ==>
        activeSessionId == old(activeSessionId) && messages == old(messages)
      ensures input == old(input) && isTyping == old(isTyping)
    {
      effects := [DeleteMessages(sessionId), DeleteSession(sessionId)];
      sessions := Without(sessions, SessionId, sessionId);
      if activeSessionId == Some(sessionId) {
        activeSessionId := None;
        messages := [];
      }
    }

    /** Choosing a session in the drawer makes it the active one; nothing else changes. */
    method SelectSession(sessionId: Id)
      modifies this
      ensures activeSessionId == Some(sessionId)
      ensures sessions == old(sessions) && messages == old(messages)
      ensures input == old(input) && isTyping == old(isTyping)
    {
      activeSessionId := Some(sessionId);
    }

    /** `handleVoiceTranscript`: the dictated text is added to what was typed. */
    method HandleVoiceTranscript(transcript: string)
      modifies this
      ensures input == WithTranscript(old(input), transcript)
      ensures sessions == old(sessions) && activeSessionId == old(activeSessionId)
      ensures messages == old(messages) && isTyping == old(isTyping)
    {
      input := WithTranscript(input, transcript);
    }

    /**
     * `handleSend`: the guard, the session created on the fly when there is no active
     * one, and the user message built from the trimmed text and its tone; the rest is
     * `Post`.
     */
    method HandleSend(created: Option<Session>, opening: seq<Content>, apiKey: string,
                      network: (Model, seq<Content>) -> Exchange,
                      userId: Id, replyId: Id, sentAt: Time, repliedAt: Time)
      returns (effects: seq<Effect>, ghost pending: ChatState)
      modifies this
      ensures Sent(pending, State(), effects)
           == Send(old(State()), created, opening, apiKey, network, userId, replyId, sentAt, repliedAt)
    {
      var trimmed := Trim(input);
      if trimmed == [] || isTyping {
        effects, pending := [], State();
        return;
      }
      var title := Take(trimmed, TitleLength);
      var newSession := activeSessionId.None?;
      if newSession {
        if created.None? {
          effects, pending := [InsertSession(title)], State();
          return;
        }
        activeSessionId := Some(created.value.id);
        sessions := [created.value] + sessions;
      }
      var user := Message(userId, activeSessionId.value, User, trimmed, Some(DetectTone(trimmed)), sentAt);
      var posted;
      posted, pending := Post(user, SmartEffects(trimmed), opening, apiKey, network, replyId, repliedAt);
      effects := if newSession then [InsertSession(title)] + posted else posted;
    }

    /**
     * `handleSend` once there is an active session, step by step: the user message shown
     * and saved, the smart command, the call to the assistant with the messages as they
     * were when the send began plus the new one, the reply shown and saved, and the title
     * set from the first message of a session.
     */
    method Post(user: Message, smart: seq<Effect>, opening: seq<Content>, apiKey: string,
                network: (Model, seq<Content>) -> Exchange, replyId: Id, repliedAt: Time)
      returns (effects: seq<Effect>, ghost pending: ChatState)
      requires activeSessionId == Some(user.sessionId) && user.tone.Some?
      modifies this
      ensures Sent(pending, State(), effects)
           == Posted(old(State()), user, smart, DispatchWith(opening, old(messages) + [user], apiKey, network).reply,
                     replyId, repliedAt)
    {
      var sessionId := user.sessionId;
      var title := Take(user.content, TitleLength);
      var snapshot := messages;
      var history := snapshot + [user];
      messages := history;
      input := "";
      isTyping := true;
      pending := State();
      effects := [InsertMessage(sessionId, User, user.content, user.tone.value)] + smart + [Ask(history)];
      var reply, _, _ := SendWithOpening(opening, history, apiKey, network);
      ShowReply(reply, snapshot == [], title, replyId, repliedAt);
      effects := effects + [InsertMessage(sessionId, Assistant, reply.content, reply.tone)];
      if snapshot == [] {
        effects := effects + [Retitle(sessionId, title)];
      }
    }

    /** The reply shown: see `Answered`. */
    method ShowReply(reply: Reply, first: bool, title: string, replyId: Id, repliedAt: Time)
      requires activeSessionId.Some?
      modifies this
      ensures State() == Answered(old(State()), reply, first, title, replyId, repliedAt)
    {
      var sessionId := activeSessionId.value;
      messages := messages + [Message(replyId, sessionId, Assistant, reply.content, Some(reply.tone), repliedAt)];
      isTyping := false;
      if first {
        sessions := Retitled(sessions, sessionId, title);
      }
    }
  }
}

=== FILE: classifier.dfy ===
/**
 * The message classifier of `src/lib/gemini.js`: a keyword-count tone detector and a
 * trigger-phrase rule engine for smart commands (save a note, save an idea, a reminder).
 */
module Classifier {
  import opened Options
  import opened Text

  datatype Tone = Calm | Stressed | Excited | Sad

  const StressWords: seq<string> := [
    "stressed", "anxious", "worried", "overwhelmed", "panic", "help me", "can't handle",
    "too much", "deadline", "urgent", "ugh", "frustrated", "angry"]
  const ExcitedWords: seq<string> := [
    "excited", "amazing", "awesome", "great news", "can't wait", "yay", "woohoo", "love it",
    "fantastic", "!!!", "omg", "incredible"]
  const SadWords: seq<string> := [
    "sad", "depressed", "lonely", "miss", "crying", "heartbroken", "lost", "feeling down",
    "hopeless", "tired of"]

  /** `words.filter(w => lower.includes(w)).length`: how many of the keywords occur. */
  function Score(lower: string, words: seq<string>): (n: nat)
    ensures n <= |words|
  {
    if words == [] then 0
    else (if Contains(lower, words[0]) then 1 else 0) + Score(lower, words[1..])
  }

  ghost predicate Distinct(words: seq<string>) {
    forall i, j :: 0 <= i < j < |words| ==> words[i] != words[j]
  }

  /** The keywords that occur in `lower`. */
  ghost function Present(lower: string, words: seq<string>): set<string> {
    set w | w in words && Contains(lower, w)
  }

  /**
   * A score counts distinct keywords, not occurrences: over a list without repeats it
   * is the number of different keywords found in the text.
   */
  lemma {:induction false} ScoreCountsDistinctKeywords(lower: string, words: seq<string>)
    requires Distinct(words)
    ensures Score(lower, words) == |Present(lower, words)|
  {
    if words != [] {
      assert Distinct(words[1..]) by {
        forall i, j | 0 <= i < j < |words[1..]| ensures words[1..][i] != words[1..][j] {
          assert words[1..][i] == words[i + 1] && words[1..][j] == words[j + 1];
        }
      }
      ScoreCountsDistinctKeywords(lower, words[1..]);
      assert words[0] !in words[1..] by {
        forall j | 0 <= j < |words[1..]| ensures words[1..][j] != words[0] {
          assert words[1..][j] == words[j + 1];
        }
      }
      PresentCons(lower, words);
    }
  }

  /** The first keyword adds one to the count of keywords present exactly when it occurs. */
  lemma PresentCons(lower: string, words: seq<string>)
    requires words != [] && words[0] !in words[1..]
    ensures |Present(lower, words)| == (if Contains(lower, words[0]) then 1 else 0) + |Present(lower, words[1..])|
  {
    var w, rest := words[0], words[1..];
    assert words == [w] + rest;
    if Contains(lower, w) {
      assert Present(lower, words) == Present(lower, rest) + {w};
      assert w !in Present(lower, rest);
    } else {
      assert Present(lower, words) == Present(lower, rest);
    }
  }

  /** The three keyword lists have no repeats, so the scores are at most 13, 12 and 10. */
  lemma KeywordListsDistinct()
    ensures Distinct(StressWords) && |StressWords| == 13
    ensures Distinct(ExcitedWords) && |ExcitedWords| == 12
    ensures Distinct(SadWords) && |SadWords| == 10
  {
  }

  /** A text containing none of the keywords scores zero. */
  lemma {:induction false} ScoreOfNone(lower: string, words: seq<string>)
    requires forall w :: w in words ==> !Contains(lower, w)
    ensures Score(lower, words) == 0
  {
    if words != [] {
      ScoreOfNone(lower, words[1..]);
    }
  }

  datatype Scores = Scores(stress: nat, excited: nat, sad: nat)

  function ToneScores(message: string): (s: Scores)
    ensures s.stress <= 13 && s.excited <= 12 && s.sad <= 10
  {
    var lower := ToLower(message);
    Scores(Score(lower, StressWords), Score(lower, ExcitedWords), Score(lower, SadWords))
  }

  /** Score `x` is positive and strictly above both others. */
  predicate Leads(x: nat, y: nat, z: nat) {
    x > y && x > z && x > 0
  }

  /**
   * `detectTone`: a mood wins only when its score is positive and strictly greater than
   * both other scores; otherwise, ties included, the message is calm. At most one mood can
   * lead, so no priority between them is ever needed.
   */
  function DetectTone(message: string): (t: Tone)
    ensures var s := ToneScores(message);
      && (t == Stressed <==> Leads(s.stress, s.excited, s.sad))
      && (t == Excited <==> Leads(s.excited, s.stress, s.sad))
      && (t == Sad <==> Leads(s.sad, s.stress, s.excited))
      && (t == Calm <==> !Leads(s.stress, s.excited, s.sad) && !Leads(s.excited, s.stress, s.sad)
                         && !Leads(s.sad, s.stress, s.excited))
  {
    var s := ToneScores(message);
    if Leads(s.stress, s.excited, s.sad) then Stressed
    else if Leads(s.excited, s.stress, s.sad) then Excited
    else if Leads(s.sad, s.stress, s.excited) then Sad
    else Calm
  }

  /** A tie for the highest score gives `calm`: there is no tie-break between moods. */
  lemma TieIsCalm(message: string)
    requires var s := ToneScores(message);
      || (s.stress == s.excited && s.stress >= s.sad)
      || (s.stress == s.sad && s.stress >= s.excited)
      || (s.excited == s.sad && s.excited >= s.stress)
    ensures DetectTone(message) == Calm
  {
  }

  /** The empty message is calm: no keyword is empty, so none occurs in it. */
  lemma EmptyIsCalm()
    ensures DetectTone("") == Calm
  {
    KeywordsNonEmpty();
    ScoreOfEmpty(StressWords);
    ScoreOfEmpty(ExcitedWords);
    ScoreOfEmpty(SadWords);
  }

  lemma KeywordsNonEmpty()
    ensures forall i :: 0 <= i < |StressWords| ==> StressWords[i] != []
    ensures forall i :: 0 <= i < |ExcitedWords| ==> ExcitedWords[i] != []
    ensures forall i :: 0 <= i < |SadWords| ==> SadWords[i] != []
  {
  }

  lemma {:induction false} ScoreOfEmpty(words: seq<string>)
    requires forall i :: 0 <= i < |words| ==> words[i] != []
    ensures Score("", words) == 0
  {
    if words != [] {
      assert !Contains("", words[0]) by {
        assert forall j :: !OccursAt("", words[0], j);
      }
      ScoreOfEmpty(words[1..]);
    }
  }

  /** Detection ignores case: a message and its lower-cased form get the same tone. */
  lemma {:induction false} ToneIgnoresCase(message: string)
    ensures DetectTone(ToLower(message)) == DetectTone(message)
  {
    ToLowerIdempotent(message);
  }

  // ---------------------------------------------------------------------------------
  // Smart commands

  datatype CommandKind = NoteCommand | IdeaCommand | ReminderCommand
  datatype Command = Command(kind: CommandKind, content: string)

  /** The characters `[:\s]` matches. */
  predicate IsSeparator(c: char) {
    c == ':' || IsSpace(c)
  }

  /** How many characters of the greedy `[:\s]*` match at the front of `s`. */
  function LeadingSeparators(s: string): (n: nat)
    ensures n <= |s|
    ensures forall i {:trigger IsSeparator(s[i])} :: 0 <= i < n ==> IsSeparator(s[i])
    ensures n < |s| ==> !IsSeparator(s[n])
  {
    if s != [] && IsSeparator(s[0]) then 1 + LeadingSeparators(s[1..]) else 0
  }

  /** `p` occurs in `s` at `i`, ignoring the case of ASCII letters (`p` is lower case). */
  predicate OccursIgnoringCaseAt(s: string, p: string, i: int) {
    OccursAt(ToLower(s), p, i)
  }

  /** `s.replace(/p[:\s]*\/i, '')`: the first case-insensitive occurrence of `p` goes, with the separators after it. */
  function RemoveTrigger(s: string, p: string): (r: string)
    ensures |r| <= |s|
    ensures IndexOf(ToLower(s), p).None? ==> r == s
  {
    CutFirst(s, ToLower(s), p)
  }

  /** `s` without the first occurrence of `p` in `lower`, a string as long as `s`, and the separators after it. */
  function CutFirst(s: string, lower: string, p: string): (r: string)
    requires |lower| == |s|
  {
    match IndexOf(lower, p)
    case None => s
    case Some(i) => Cut(s, i, i + |p|)
  }

  /** `s` without `s[from..to]` and the separators that follow it. */
  function Cut(s: string, from: nat, to: nat): (r: string)
    requires from <= to <= |s|
    ensures |r| <= |s|
  {
    s[..from] + s[to + LeadingSeparators(s[to..])..]
  }

  /**
   * What `RemoveTrigger` removes when `p` occurs: exactly its first case-insensitive
   * occurrence, at `i`, and the run of `gap` separators after it; the text before and the
   * text after are kept as they are.
   */
  lemma RemoveTriggerSplits(s: string, p: string) returns (i: nat, gap: nat)
    requires IndexOf(ToLower(s), p).Some?
    ensures IndexOf(ToLower(s), p) == Some(i) && i + |p| + gap <= |s|
    ensures RemoveTrigger(s, p) == s[..i] + s[i + |p| + gap..]
    ensures forall k {:trigger IsSeparator(s[k])} :: i + |p| <= k < i + |p| + gap ==> IsSeparator(s[k])
    ensures i + |p| + gap < |s| ==> !IsSeparator(s[i + |p| + gap])
  {
    i := IndexOf(ToLower(s), p).value;
    RemoveTriggerIsCut(s, p, i);
    gap := CutShape(s, i, i + |p|);
  }

  lemma RemoveTriggerIsCut(s: string, p: string, i: nat)
    requires IndexOf(ToLower(s), p) == Some(i)
    ensures i + |p| <= |s| && RemoveTrigger(s, p) == Cut(s, i, i + |p|)
  {
    CutFirstIsCut(s, ToLower(s), p, i);
  }

  lemma CutFirstIsCut(s: string, lower: string, p: string, i: nat)
    requires |lower| == |s| && IndexOf(lower, p) == Some(i)
    ensures i + |p| <= |s| && CutFirst(s, lower, p) == Cut(s, i, i + |p|)
  {
  }

  /** What `Cut` keeps and what it drops: the cut piece and the separators after it. */
  lemma CutShape(s: string, from: nat, to: nat) returns (gap: nat)
    requires from <= to <= |s|
    ensures to + gap <= |s|
    ensures Cut(s, from, to) == s[..from] + s[to + gap..]
    ensures forall k {:trigger IsSeparator(s[k])} :: to <= k < to + gap ==> IsSeparator(s[k])
    ensures to + gap < |s| ==> !IsSeparator(s[to + gap])
  {
    var tail := s[to..];
    gap := LeadingSeparators(tail);
    forall k | to <= k < to + gap ensures IsSeparator(s[k]) {
      assert s[k] == tail[k - to];
    }
    if to + gap < |s| {
      assert s[to + gap] == tail[gap];
    }
  }

  /** `s.replace(/^idea[:\s]*\/i, '')`: only at the very start of the string. */
  function RemoveLeadingIdea(s: string): (r: string)
    ensures |r| <= |s|
    ensures !OccursIgnoringCaseAt(s, IdeaWord, 0) ==> r == s
  {
    if OccursIgnoringCaseAt(s, IdeaWord, 0) then Cut(s, 0, |IdeaWord|) else s
  }

  /**
   * What the anchored replace leaves when the text starts with `idea` in any case: the
   * text after the word and the whole run of `gap` separators that follows it.
   */
  lemma RemoveLeadingIdeaSplits(s: string) returns (gap: nat)
    requires OccursIgnoringCaseAt(s, IdeaWord, 0)
    ensures |IdeaWord| + gap <= |s|
    ensures RemoveLeadingIdea(s) == s[|IdeaWord| + gap..]
    ensures forall k {:trigger IsSeparator(s[k])} :: |IdeaWord| <= k < |IdeaWord| + gap ==> IsSeparator(s[k])
    ensures |IdeaWord| + gap < |s| ==> !IsSeparator(s[|IdeaWord| + gap])
  {
    assert |IdeaWord| <= |ToLower(s)| == |s|;
    gap := CutShape(s, 0, |IdeaWord|);
    assert s[..0] + s[|IdeaWord| + gap..] == s[|IdeaWord| + gap..];
  }

  /** The phrases the commands look for, in lower case. */
  const RememberThis := "remember this"
  const NoteThis := "note this"
  const SaveThisNote := "save this note"
  const SaveIdea := "save idea"
  const IdeaPrefix := "idea:"
  const IdeaWord := "idea"
  const RemindMe := "remind me"

  /** `lower.includes(...)` for the three note phrases, on the trimmed lower-cased message. */
  predicate AsksForNote(message: string) {
    var lower := Trim(ToLower(message));
    Contains(lower, RememberThis) || Contains(lower, NoteThis) || Contains(lower, SaveThisNote)
  }

  predicate AsksForIdea(message: string) {
    var lower := Trim(ToLower(message));
    Contains(lower, SaveIdea) || StartsWith(lower, IdeaPrefix)
  }

  predicate AsksForReminder(message: string) {
    Contains(Trim(ToLower(message)), RemindMe)
  }

  function NoteContent(message: string): string {
    Trim(RemoveTrigger(RemoveTrigger(RemoveTrigger(message, RememberThis), NoteThis), SaveThisNote))
  }

  function IdeaContent(message: string): string {
    Trim(RemoveLeadingIdea(RemoveTrigger(message, SaveIdea)))
  }

  /**
   * `detectSmartCommand`: note before idea before reminder, otherwise none. A note or
   * idea carries the message with its triggers stripped and trimmed, or the whole message
   * when nothing is left; a reminder carries the message unchanged. The content of a
   * command is never empty.
   */
  function DetectSmartCommand(message: string): (r: Option<Command>)
    ensures r.None? <==> !AsksForNote(message) && !AsksForIdea(message) && !AsksForReminder(message)
    ensures r.Some? && r.value.kind == NoteCommand <==> AsksForNote(message)
    ensures r.Some? && r.value.kind == IdeaCommand <==> !AsksForNote(message) && AsksForIdea(message)
    ensures r.Some? && r.value.kind == ReminderCommand <==>
      !AsksForNote(message) && !AsksForIdea(message) && AsksForReminder(message)
    ensures r.Some? ==> r.value.content != []
    ensures r.Some? && r.value.kind == ReminderCommand ==> r.value.content == message
    ensures r.Some? && r.value.kind == NoteCommand ==>
      r.value.content == if NoteContent(message) == [] then message else NoteContent(message)
    ensures r.Some? && r.value.kind == IdeaCommand ==>
      r.value.content == if IdeaContent(message) == [] then message else IdeaContent(message)
  {
    if AsksForNote(message) then
      Some(Command(NoteCommand, OrElse(NoteContent(message), message)))
    else if AsksForIdea(message) then
      Some(Command(IdeaCommand, OrElse(IdeaContent(message), message)))
    else if AsksForReminder(message) then
      Some(Command(ReminderCommand, message))
    else
      None
  }
}

=== FILE: dispatcher.dfy ===
/**
 * The model dispatcher of `src/lib/gemini.js`: the system prompt, the request sent to
 * the generative API, and the fallback over the candidate models. The network is a
 * parameter: `network(model, request)` is what one HTTP exchange with that model returned.
 */
module Dispatcher {
  import opened Options
  import opened Text
  import opened Classifier
  import opened Store

  datatype Role = User | Assistant

  /** A row of the `messages` table. */
  datatype Message = Message(id: Id, sessionId: Id, role: Role, content: string, tone: Option<Tone>, createdAt: Time)

  /** The user's profile; an unset field is the empty string. */
  datatype Profile = Profile(fullName: string, goals: string, tonePreference: string)

  /** A candidate model: its identifier and the API version that serves it. */
  datatype Model = Model(name: string, version: string)

  /** Tried in this order: different models draw on separate quotas. */
  const Models: seq<Model> := [
    Model("gemini-2.0-flash", "v1beta"),
    Model("gemini-1.5-flash", "v1"),
    Model("gemini-1.5-flash-8b", "v1")]

  /** The provider's two roles. */
  datatype ApiRole = ApiUser | ApiModel

  /** One entry of the request's `contents` array (a single text part). */
  datatype Content = Content(role: ApiRole, text: string)

  // ---------------------------------------------------------------------------------
  // The system prompt

  function FullName(profile: Option<Profile>): string {
    if profile.Some? then profile.value.fullName else ""
  }

  function Goals(profile: Option<Profile>): string {
    if profile.Some? then profile.value.goals else ""
  }

  function TonePreference(profile: Option<Profile>): string {
    if profile.Some? then profile.value.tonePreference else ""
  }

  /** One line of the prompt's profile block. */
  function ProfileLine(field: string, value: string): string {
    "- " + field + ": " + value + "\n"
  }

  const PromptIntro: string :=
    "You are VIONA \U{2014} a warm, intelligent, and empathetic personal AI assistant.\n\n"
    + "PERSONALITY TRAITS:\n"
    + "- You're supportive yet honest. You celebrate wins and gently challenge bad ideas.\n"
    + "- You speak naturally, like a trusted friend who happens to be brilliant.\n"
    + "- You use the user's name ("

  const PromptTraits: string :=
    ") occasionally to be personal.\n"
    + "- You remember context from the conversation and reference it.\n"
    + "- You NEVER say you're \"just an AI\" \U{2014} you're VIONA, their dedicated assistant.\n\n"
    + "USER PROFILE:\n"

  const PromptGuidelines: string :=
    "\nTONE GUIDELINES (match to preference \""

  /** The text after the preferred tone. */
  const PromptBody: string :=
    "\"):\n"
    + "- supportive: Encouraging, warm, uses emojis sparingly \U{2728}\n"
    + "- professional: Clear, structured, formal but approachable\n"
    + "- casual: Friendly, uses humor, relaxed language\n"
    + "- motivational: Energetic, pump-up energy, action-oriented \U{1F525}\n"
    + "\n"
    + "CAPABILITIES \U{2014} you can help with:\n"
    + "- Brainstorming ideas and creative thinking\n"
    + "- Decision-making (pros/cons analysis)\n"
    + "- Drafting messages, emails, plans\n"
    + "- Step-by-step reasoning and problem solving\n"
    + "- Emotional support and motivation\n"
    + "- Organizing thoughts and priorities\n"
    + "\n"
    + "SPECIAL COMMANDS (detect and respond accordingly):\n"
    + "- If user says \"remember this\" or \"note this\" \U{2192} Acknowledge and confirm you'll save it\n"
    + "- If user says \"save idea\" or \"idea:\" \U{2192} Acknowledge the idea being saved\n"
    + "- If user says \"remind me\" \U{2192} Ask for when, and confirm the reminder\n"
    + "\n"
    + "TONE DETECTION:\n"
    + "- Analyze the user's message tone (calm, stressed, excited, sad, frustrated)\n"
    + "- Adapt your response energy to match or uplift their mood\n"
    + "- If stressed: be calming and reassuring\n"
    + "- If excited: match their energy\n"
    + "- If sad: be gentle and supportive\n"
    + "\n"
    + "Keep responses concise but helpful. Use bullet points for lists. Be actionable."

  /** `buildSystemPrompt`: a fixed template around the profile's three fields. */
  function BuildSystemPrompt(profile: Option<Profile>, tonePreference: string): string {
    PromptIntro + OrElse(FullName(profile), "friend") + PromptTraits
    + ProfileLine("Name", OrElse(FullName(profile), "Not set"))
    + ProfileLine("Goals", OrElse(Goals(profile), "Not shared yet"))
    + ProfileLine("Preferred tone", OrElse(tonePreference, "supportive"))
    + (PromptGuidelines + OrElse(tonePreference, "supportive") + PromptBody)
  }

  /**
   * What the prompt tells the model: it opens with the persona, whose line about the
   * user's name shows the name (or `friend`); the profile block shows the name (or
   * `Not set`), the goals (or `Not shared yet`) and the preferred tone (or `supportive`),
   * and the tone guidelines name the same tone.
   */
  lemma SystemPromptShowsProfile(profile: Option<Profile>, tonePreference: string)
    ensures var r := BuildSystemPrompt(profile, tonePreference);
      && StartsWith(r, PromptIntro + OrElse(FullName(profile), "friend") + PromptTraits)
      && Contains(r, ProfileLine("Name", OrElse(FullName(profile), "Not set")))
      && Contains(r, ProfileLine("Goals", OrElse(Goals(profile), "Not shared yet")))
      && Contains(r, ProfileLine("Preferred tone", OrElse(tonePreference, "supportive")))
      && Contains(r, PromptGuidelines + OrElse(tonePreference, "supportive") + PromptBody)
  {
    TemplateParts(PromptIntro, OrElse(FullName(profile), "friend"), PromptTraits,
      ProfileLine("Name", OrElse(FullName(profile), "Not set")),
      ProfileLine("Goals", OrElse(Goals(profile), "Not shared yet")),
      ProfileLine("Preferred tone", OrElse(tonePreference, "supportive")),
      PromptGuidelines + OrElse(tonePreference, "supportive") + PromptBody);
  }

  /** The first three parts of a concatenation are a prefix of it, and each later part occurs in it. */
  lemma TemplateParts(a: string, b: string, c: string, d: string, e: string, f: string, g: string)
    ensures StartsWith(a + b + c + d + e + f + g, a + b + c)
    ensures Contains(a + b + c + d + e + f + g, d) && Contains(a + b + c + d + e + f + g, e)
    ensures Contains(a + b + c + d + e + f + g, f) && Contains(a + b + c + d + e + f + g, g)
  {
    var s := a + b + c + d + e + f + g;
    var h := a + b + c;
    assert s[..|h|] == h;
    assert s == h + d + (e + f + g);
    ContainsInfix(h, d, e + f + g);
    assert s == (h + d) + e + (f + g);
    ContainsInfix(h + d, e, f + g);
    ContainsInfix(h + d + e, f, g);
    assert s == (h + d + e + f) + g + "";
    ContainsInfix(h + d + e + f, g, "");
  }

  /** A missing profile renders exactly like a profile whose fields are all unset. */
  lemma MissingProfileIsEmptyProfile(tonePreference: string)
    ensures BuildSystemPrompt(None, tonePreference) == BuildSystemPrompt(Some(Profile("", "", "")), tonePreference)
  {
  }

  // ---------------------------------------------------------------------------------
  // One attempt

  /** The JSON body of a response, as far as the code reads it; an absent field is "". */
  datatype Body = Unparsable(parseError: string) | Parsed(errorMessage: string, text: string)

  /** What one HTTP exchange produced: a transport failure or a response. */
  datatype Exchange = NetworkError(message: string) | Response(ok: bool, status: nat, body: Body)

  /** What `tryModel` resolves to: the generated text, or the message it throws. */
  datatype Outcome = Ok(text: string) | Err(message: string)

  /**
   * `tryModel`'s verdict on one exchange: success exactly when the status is OK, the body
   * parses and the text is not empty, and then the text is the answer. A failed status is
   * reported with the model's name and the server's message, or `HTTP <status>` when there
   * is none; an empty text with the model's name and `No response text`.
   */
  function TryModel(model: Model, exchange: Exchange): (r: Outcome)
    ensures r.Ok? <==> exchange.Response? && exchange.ok && exchange.body.Parsed? && exchange.body.text != ""
    ensures r.Ok? ==> r.text == exchange.body.text
    ensures exchange.Response? && !exchange.ok ==>
      r == Err(model.name + ": " + if exchange.body.Parsed? && exchange.body.errorMessage != ""
                                   then exchange.body.errorMessage
                                   else "HTTP " + Decimal(exchange.status))
    ensures exchange.Response? && exchange.ok && exchange.body.Parsed? && exchange.body.text == "" ==>
      r == Err(model.name + ": No response text")
  {
    match exchange
    case NetworkError(m) => Err(m)
    case Response(ok, status, body) =>
      if !ok then
        var detail := if body.Parsed? then body.errorMessage else "";
        Err(model.name + ": " + OrElse(detail, "HTTP " + Decimal(status)))
      else
        match body
        case Unparsable(e) => Err(e)
        case Parsed(_, text) => if text == "" then Err(model.name + ": No response text") else Ok(text)
  }

  // ---------------------------------------------------------------------------------
  // The request

  function ApiRoleOf(role: Role): ApiRole {
    if role == User then ApiUser else ApiModel
  }

  function ToContent(m: Message): Content {
    Content(ApiRoleOf(m.role), m.content)
  }

  /** `messages.slice(-n)`: the last `n` messages, or all of them. */
  function LastN(messages: seq<Message>, n: nat): (r: seq<Message>)
    ensures |r| == if |messages| < n then |messages| else n
    ensures r == messages[|messages| - |r|..]
  {
    if |messages| <= n then messages else messages[|messages| - n..]
  }

  const PromptClose: string := "\n\nPlease acknowledge and begin."

  /** The system prompt sent as the first user turn. */
  function OpeningPrompt(profile: Option<Profile>): string {
    BuildSystemPrompt(profile, TonePreference(profile)) + PromptClose
  }

  const GreetingTail: string :=
    " I'm VIONA, your personal AI assistant. I'm here and ready to help. What's on your mind? \U{1F60A}"

  /** The scripted greeting of the assistant, by name or to `there`. */
  function Greeting(profile: Option<Profile>): string {
    "Hey " + OrElse(FullName(profile), "there") + "!" + GreetingTail
  }

  /**
   * The greeting addresses the user by the profile's name, and by `there` when there is
   * no profile or no name.
   */
  lemma GreetingAddressesUser(profile: Option<Profile>)
    ensures profile.Some? && profile.value.fullName != "" ==> StartsWith(Greeting(profile), "Hey " + profile.value.fullName + "!")
    ensures profile.None? || profile.value.fullName == "" ==> StartsWith(Greeting(profile), "Hey there!")
  {
    var h := "Hey " + OrElse(FullName(profile), "there") + "!";
    assert Greeting(profile)[..|h|] == h;
  }

  /** The synthetic opening exchange: the system prompt as a user turn, and a greeting. */
  function Opening(profile: Option<Profile>): seq<Content> {
    [Content(ApiUser, OpeningPrompt(profile)), Content(ApiModel, Greeting(profile))]
  }

  const HistoryLimit: nat := 20

  /** The request entries for the given messages, in order. */
  function Entries(ms: seq<Message>): (r: seq<Content>)
    ensures |r| == |ms|
  {
    seq(|ms|, k requires 0 <= k < |ms| => ToContent(ms[k]))
  }

  /** The `contents` array behind the given opening turns: those, then the last 20 messages. */
  function Request(opening: seq<Content>, messages: seq<Message>): (r: seq<Content>)
    ensures |r| == |opening| + if |messages| < HistoryLimit then |messages| else HistoryLimit
  {
    opening + Entries(LastN(messages, HistoryLimit))
  }

  /** The `contents` array `sendMessage` builds for a profile. */
  function RequestFor(messages: seq<Message>, profile: Option<Profile>): seq<Content> {
    Request(Opening(profile), messages)
  }

  /** The request starts with the opening turns, unchanged. */
  lemma RequestKeepsOpening(opening: seq<Content>, messages: seq<Message>)
    ensures Request(opening, messages)[..|opening|] == opening
  {
    assert (opening + Entries(LastN(messages, HistoryLimit)))[..|opening|] == opening;
  }

  /**
   * The request `sendMessage` builds holds two turns more than the recent history: the
   * system prompt as a `user` turn, then the greeting as a `model` turn.
   */
  lemma RequestForShape(messages: seq<Message>, profile: Option<Profile>)
    ensures var r := RequestFor(messages, profile);
      && |r| == 2 + (if |messages| < HistoryLimit then |messages| else HistoryLimit)
      && r[0] == Content(ApiUser, OpeningPrompt(profile))
      && r[1] == Content(ApiModel, Greeting(profile))
  {
    RequestKeepsOpening(Opening(profile), messages);
  }

  /**
   * After the opening turns come the last 20 messages in their order, each with its own
   * text. A user message stays `user`; every other role becomes `model`.
   */
  lemma RequestShape(opening: seq<Content>, messages: seq<Message>)
    ensures var r := Request(opening, messages);
      forall k :: |opening| <= k < |r| ==>
        && r[k].text == messages[|messages| - |r| + k].content
        && (r[k].role == ApiUser <==> messages[|messages| - |r| + k].role == User)
  {
    var recent := LastN(messages, HistoryLimit);
    var r := opening + Entries(recent);
    forall k | |opening| <= k < |r|
      ensures r[k] == ToContent(messages[|messages| - |r| + k])
    {
      var e := k - |opening|;
      assert r[k] == Entries(recent)[e] == ToContent(recent[e]);
      assert recent[e] == messages[|messages| - |recent| + e];
    }
  }

  // ---------------------------------------------------------------------------------
  // The fallback over the candidate models

  const ConfigWarning: string :=
    "\U{26A0}\U{FE0F} Gemini API key not configured. Add VITE_GEMINI_API_KEY to your .env file to enable AI responses."

  /**
   * The hint shown when every model failed, taken from the first model's error. The
   * contract is definitional; `DegradedQuotesHint` says where the hint ends up.
   */
  function FailureHint(firstError: string): (r: string)
    ensures Contains(firstError, "Quota") ==> r == "API rate limit reached"
    ensures !Contains(firstError, "Quota") ==> r == firstError
  {
    if Contains(firstError, "Quota") then "API rate limit reached" else firstError
  }

  const DegradedLead: string :=
    "\U{1F614} I'm having trouble connecting right now. All AI models are at capacity. "
    + "This usually resolves in a minute. Please try again shortly!\n\n(Technical: "

  function Degraded(firstError: string): string {
    DegradedLead + FailureHint(firstError) + ")"
  }

  datatype Reply = Reply(content: string, tone: Tone)

  /** `messages[messages.length - 1]?.content || ''`. */
  function LastContent(messages: seq<Message>): string {
    if messages == [] then "" else messages[|messages| - 1].content
  }

  /**
   * What each candidate model makes of the request, in the declared order. The contract
   * is definitional; `TryInOrder` is proved against it.
   */
  function Outcomes(models: seq<Model>, request: seq<Content>,
                    network: (Model, seq<Content>) -> Exchange): (r: seq<Outcome>)
    ensures |r| == |models|
    ensures forall i :: 0 <= i < |models| ==> r[i] == TryModel(models[i], network(models[i], request))
  {
    seq(|models|, i requires 0 <= i < |models| => TryModel(models[i], network(models[i], request)))
  }

  /** The first successful outcome, if any: every outcome before it failed. */
  function FirstOk(outcomes: seq<Outcome>): (r: Option<nat>)
    ensures r.Some? ==> r.value < |outcomes| && outcomes[r.value].Ok?
    ensures r.Some? ==> forall j :: 0 <= j < r.value ==> outcomes[j].Err?
    ensures r.None? <==> forall j :: 0 <= j < |outcomes| ==> outcomes[j].Err?
  {
    if outcomes == [] then None
    else if outcomes[0].Ok? then Some(0)
    else match FirstOk(outcomes[1..])
      case None => None
      case Some(i) => Some(i + 1)
  }

  /** The reply of one `sendMessage` call and the models it tried, in order. */
  datatype Dispatched = Dispatched(reply: Reply, tried: seq<Model>)

  /**
   * What `sendMessage` does, as a specification: with no API key, the configuration
   * warning, in a calm tone, and no model tried; otherwise the first model that succeeds
   * answers and no later one is tried, and when all fail the degraded message carries the
   * first model's error. The tone comes from the last message, whatever the outcome.
   */
  function Dispatch(messages: seq<Message>, profile: Option<Profile>, apiKey: string,
                    network: (Model, seq<Content>) -> Exchange): Dispatched
  {
    DispatchWith(Opening(profile), messages, apiKey, network)
  }

  /** `Dispatch` for any opening turns. */
  function DispatchWith(opening: seq<Content>, messages: seq<Message>, apiKey: string,
                        network: (Model, seq<Content>) -> Exchange): Dispatched
  {
    if apiKey == "" then Dispatched(Reply(ConfigWarning, Calm), [])
    else Fallback(Models, Outcomes(Models, Request(opening, messages), network), DetectTone(LastContent(messages)))
  }

  /** The reply once every candidate's outcome is known, `outcomes[i]` being `models[i]`'s. */
  function Fallback(models: seq<Model>, outcomes: seq<Outcome>, tone: Tone): Dispatched
    requires |outcomes| == |models| > 0
  {
    match FirstOk(outcomes)
    case Some(i) => Dispatched(Reply(outcomes[i].text, tone), models[..i + 1])
    case None => Dispatched(Reply(Degraded(outcomes[0].message), tone), models)
  }

  /**
   * `sendMessage`: with a key, builds the request and tries the candidate models in
   * order, returning on the first success. It never fails: every path ends in a reply.
   * `request` is the `contents` array every attempt sent (empty when there is no key).
   */
  method SendMessage(messages: seq<Message>, profile: Option<Profile>, apiKey: string,
                     network: (Model, seq<Content>) -> Exchange)
    returns (reply: Reply, request: seq<Content>, tried: seq<Model>)
    ensures Dispatched(reply, tried) == Dispatch(messages, profile, apiKey, network)
    ensures apiKey != "" ==> request == RequestFor(messages, profile)
  {
    reply, request, tried := SendWithOpening(Opening(profile), messages, apiKey, network);
  }

  /** The body of `sendMessage` once the opening turns are rendered. */
  method SendWithOpening(opening: seq<Content>, messages: seq<Message>, apiKey: string,
                         network: (Model, seq<Content>) -> Exchange)
    returns (reply: Reply, request: seq<Content>, tried: seq<Model>)
    ensures Dispatched(reply, tried) == DispatchWith(opening, messages, apiKey, network)
    ensures apiKey != "" ==> request == Request(opening, messages)
    ensures apiKey == "" ==> request == []
  {
    if apiKey == "" {
      return Reply(ConfigWarning, Calm), [], [];
    }
    var tone := DetectTone(LastContent(messages));
    request := BuildRequest(opening, LastN(messages, HistoryLimit));
    reply, tried := TryInOrder(Models, request, network, tone);
  }

  /** The `contents` loop: the opening turns, then one entry per recent message. */
  method BuildRequest(opening: seq<Content>, recent: seq<Message>) returns (request: seq<Content>)
    ensures request == opening + Entries(recent)
  {
    request := opening;
    for k := 0 to |recent|
      invariant request == opening + Entries(recent[..k])
    {
      EntriesSnoc(recent, k);
      request := request + [ToContent(recent[k])];
    }
    assert recent[..|recent|] == recent;
  }

  /**
   * The fallback loop over `MODELS`: the first model that succeeds answers and the loop
   * stops there; when every model fails, the degraded reply quotes the first error.
   */
  method TryInOrder(models: seq<Model>, request: seq<Content>,
                    network: (Model, seq<Content>) -> Exchange, tone: Tone)
    returns (reply: Reply, tried: seq<Model>)
    requires models != []
    ensures Dispatched(reply, tried) == Fallback(models, Outcomes(models, request, network), tone)
  {
    ghost var outcomes := Outcomes(models, request, network);
    var errors: seq<string> := [];
    tried := [];
    for i := 0 to |models|
      invariant tried == models[..i]
      invariant |errors| == i
      invariant forall j :: 0 <= j < i ==> outcomes[j] == Err(errors[j])
    {
      tried := tried + [models[i]];
      var outcome := TryModel(models[i], network(models[i], request));
      assert outcome == outcomes[i];
      match outcome
      case Ok(text) =>
        FirstSuccessAnswers(models, outcomes, tone, i);
        reply := Reply(text, tone);
        return;
      case Err(message) =>
        errors := errors + [message];
    }
    assert outcomes[0] == Err(errors[0]);
    AllFailedDegrades(models, outcomes, tone);
    assert tried == models;
    reply := Reply(Degraded(errors[0]), tone);
  }

  /** Building the entries one message at a time. */
  lemma EntriesSnoc(ms: seq<Message>, k: nat)
    requires k < |ms|
    ensures Entries(ms[..k + 1]) == Entries(ms[..k]) + [ToContent(ms[k])]
  {
  }

  /** The first success is the only index with a success and only failures before it. */
  lemma {:induction false} FirstOkIs(outcomes: seq<Outcome>, i: nat)
    requires i < |outcomes| && outcomes[i].Ok?
    requires forall j :: 0 <= j < i ==> outcomes[j].Err?
    ensures FirstOk(outcomes) == Some(i)
  {
    if i > 0 {
      FirstOkIs(outcomes[1..], i - 1);
    }
  }

  // ---------------------------------------------------------------------------------
  // Properties of the dispatcher

  /** Without an API key nothing is sent: the configuration warning, calm, no model tried. */
  lemma NoKeyNoRequest(opening: seq<Content>, messages: seq<Message>,
                       network: (Model, seq<Content>) -> Exchange)
    ensures DispatchWith(opening, messages, "", network) == Dispatched(Reply(ConfigWarning, Calm), [])
  {
  }

  /**
   * With a key, the tone of the reply is the tone of the last message whatever the network
   * does, and the models tried are a non-empty prefix of the candidate list.
   */
  lemma ToneAndAttempts(models: seq<Model>, outcomes: seq<Outcome>, tone: Tone)
    requires |outcomes| == |models| > 0
    ensures var d := Fallback(models, outcomes, tone);
      && d.reply.tone == tone
      && d.tried != [] && d.tried <= models
  {
    match FirstOk(outcomes)
    case Some(i) =>
      FirstSuccessAnswers(models, outcomes, tone, i);
      TakeIsPrefix(models, i + 1);
    case None =>
      AllFailedDegrades(models, outcomes, tone);
      PrefixReflexive(models);
  }

  lemma PrefixReflexive(models: seq<Model>)
    ensures models <= models
  {
  }

  lemma TakeIsPrefix(models: seq<Model>, n: nat)
    requires n <= |models|
    ensures models[..n] <= models
  {
  }

  /** The tone a keyed dispatch replies in is the last message's, whatever the network does. */
  lemma ToneIgnoresNetwork(opening: seq<Content>, messages: seq<Message>, apiKey: string,
                           network: (Model, seq<Content>) -> Exchange)
    requires apiKey != ""
    ensures DispatchWith(opening, messages, apiKey, network).reply.tone == DetectTone(LastContent(messages))
  {
    ToneAndAttempts(Models, Outcomes(Models, Request(opening, messages), network), DetectTone(LastContent(messages)));
  }

  /**
   * The first model whose attempt succeeds answers with its text; the ones before it all
   * failed and were tried, the ones after it are not.
   */
  lemma FirstSuccessAnswers(models: seq<Model>, outcomes: seq<Outcome>, tone: Tone, i: nat)
    requires |outcomes| == |models| && i < |models|
    requires outcomes[i].Ok? && forall j :: 0 <= j < i ==> outcomes[j].Err?
    ensures Fallback(models, outcomes, tone) == Dispatched(Reply(outcomes[i].text, tone), models[..i + 1])
  {
    FirstOkIs(outcomes, i);
  }

  /**
   * When every model fails, all three were tried and the reply is the degraded message,
   * which quotes the first model's error, or the rate-limit hint when that error mentions
   * `Quota`.
   */
  lemma AllFailedDegrades(models: seq<Model>, outcomes: seq<Outcome>, tone: Tone)
    requires |outcomes| == |models| > 0
    requires forall j :: 0 <= j < |outcomes| ==> outcomes[j].Err?
    ensures Fallback(models, outcomes, tone) == Dispatched(Reply(Degraded(outcomes[0].message), tone), models)
  {
  }

  /** The degraded message carries the hint. */
  lemma DegradedQuotesHint(firstError: string)
    ensures Contains(Degraded(firstError), FailureHint(firstError))
  {
    ContainsInfix(DegradedLead, FailureHint(firstError), ")");
  }
}

=== FILE: ideas_page.dfy ===
/**
 * The Idea Vault page (`src/pages/IdeasPage.jsx`): the in-memory list of ideas, newest
 * first, and the dialog that creates a new idea or edits an existing one.
 */
module IdeasPage {
  import opened Options
  import opened Text
  import opened Lists
  import opened Store

  /** A row of `idea_vault`; a column the database left null is the empty string. */
  datatype Idea = Idea(id: Id, title: string, content: string, category: string, createdAt: Time)

  /** The dialog's fields. */
  datatype IdeaForm = IdeaForm(title: string, content: string, category: string)

  /** What `saveIdea` asks of the store: an update of the idea being edited, or an insert. */
  datatype IdeaRequest = UpdateIdea(id: Id, fields: IdeaForm) | InsertIdea(fields: IdeaForm)

  const EmptyForm: IdeaForm := IdeaForm("", "", "general")

  function IdeaId(i: Idea): Id { i.id }

  /**
   * The form `openModal` fills in for an idea: its title as it is, a missing content as
   * the empty string and a missing category as `general`.
   */
  function FormOf(idea: Idea): (f: IdeaForm)
    ensures f.title == idea.title && f.content == idea.content
    ensures f.category != ""
    ensures idea.category != "" ==> f.category == idea.category
    ensures idea.category == "" ==> f.category == "general"
  {
    IdeaForm(idea.title, OrElse(idea.content, ""), OrElse(idea.category, "general"))
  }

  /** What `saveIdea` sends: nothing for a blank title, else an update or an insert of the form. */
  function SaveRequest(form: IdeaForm, editingId: Option<Id>): (r: Option<IdeaRequest>)
    ensures r.None? <==> Blank(form.title)
    ensures r.Some? ==> r.value.fields == form
    ensures r.Some? ==> (r.value.UpdateIdea? <==> editingId.Some?)
    ensures r.Some? && r.value.UpdateIdea? ==> r.value.id == editingId.value
  {
    if Trim(form.title) == [] then None
    else if editingId.Some? then Some(UpdateIdea(editingId.value, form))
    else Some(InsertIdea(form))
  }

  /**
   * Opening an idea with a title and saving it without touching the form writes its own
   * fields back to the same row; an idea without a category gets `general`.
   */
  lemma OpenThenSaveWritesBack(idea: Idea)
    requires !Blank(idea.title)
    ensures idea.category != "" ==>
      SaveRequest(FormOf(idea), Some(idea.id))
        == Some(UpdateIdea(idea.id, IdeaForm(idea.title, idea.content, idea.category)))
    ensures idea.category == "" ==>
      SaveRequest(FormOf(idea), Some(idea.id))
        == Some(UpdateIdea(idea.id, IdeaForm(idea.title, idea.content, "general")))
  {
  }

  /**
   * An edit replaces the rows carrying the edited id by the returned row: the list keeps
   * its length, and the rows with other ids are untouched and in their order.
   */
  lemma EditKeepsOthers(ideas: seq<Idea>, id: Id, row: Idea)
    requires row.id == id
    ensures |ReplaceWhere(ideas, IdeaId, id, row)| == |ideas|
    ensures Without(ReplaceWhere(ideas, IdeaId, id, row), IdeaId, id) == Without(ideas, IdeaId, id)
  {
    ReplaceKeepsOthers(ideas, IdeaId, id, row);
  }

  class Ideas {
    var ideas: seq<Idea>
    var showModal: bool
    var editingId: Option<Id>
    var form: IdeaForm

    constructor ()
      ensures ideas == [] && !showModal && editingId == None && form == EmptyForm
    {
      ideas := [];
      showModal := false;
      editingId := None;
      form := EmptyForm;
    }

    /** `openModal(idea)`: edit that idea, or start a new one with the empty form. */
    method OpenModal(idea: Option<Idea>)
      modifies this
      ensures idea.Some? ==> editingId == Some(idea.value.id) && form == FormOf(idea.value)
      ensures idea.None? ==> editingId == None && form == EmptyForm
      ensures showModal && ideas == old(ideas)
    {
      if idea.Some? {
        editingId := Some(idea.value.id);
        form := FormOf(idea.value);
      } else {
        editingId := None;
        form := EmptyForm;
      }
      showModal := true;
    }

    /**
     * `saveIdea`: a blank title is ignored. Otherwise the form is sent as it is (the title
     * is only trimmed for the test). A returned row replaces the edited idea, or goes to
     * the front of the list for a new one; then, whether or not the store answered, the
     * dialog closes and the form and the edited id are reset.
     */
    method SaveIdea(answer: Option<Idea>) returns (request: Option<IdeaRequest>)
      modifies this
      ensures request == SaveRequest(old(form), old(editingId))
      ensures request.None? ==>
        ideas == old(ideas) && showModal == old(showModal) && editingId == old(editingId) && form == old(form)
      ensures request.Some? ==> !showModal && form == EmptyForm && editingId == None
      ensures request.Some? && answer.Some? && old(editingId).Some? ==>
        ideas == ReplaceWhere(old(ideas), IdeaId, old(editingId).value, answer.value)
      ensures request.Some? && answer.Some? && old(editingId).None? ==> ideas == [answer.value] + old(ideas)
      ensures answer.None? ==> ideas == old(ideas)
    {
      request := SaveRequest(form, editingId);
      if request.None? {
        return;
      }
      if editingId.Some? {
        if answer.Some? {
          ideas := ReplaceWhere(ideas, IdeaId, editingId.value, answer.value);
        }
      } else {
        if answer.Some? {
          ideas := [answer.value] + ideas;
        }
      }
      showModal := false;
      form := EmptyForm;
      editingId := None;
    }

    /** `deleteIdea`: the ideas with that id go, the others stay in their order. */
    method DeleteIdea(id: Id)
      modifies this
      ensures ideas == Without(old(ideas), IdeaId, id)
      ensures showModal == old(showModal) && editingId == old(editingId) && form == old(form)
    {
      ideas := Without(ideas, IdeaId, id);
    }
  }
}

=== FILE: lists.dfy ===
/**
 * The array transforms the pages apply to their in-memory lists after a store call:
 * `filter`, `map` that swaps the row with a given id, and a stable sort by a numeric key.
 * Rows are compared by a key function (`r => r.id`, `r => r.remind_at`).
 */
module Lists {

  /** `xs.filter(keep)`: the elements that pass, in their original order. */
  function Filter<T(!new)>(xs: seq<T>, keep: T -> bool): (r: seq<T>)
    ensures |r| <= |xs|
    ensures forall x :: x in r <==> x in xs && keep(x)
  {
    if xs == [] then []
    else (if keep(xs[0]) then [xs[0]] else []) + Filter(xs[1..], keep)
  }

  /** Filtering distributes over concatenation: the kept elements stay in their order. */
  lemma {:induction false} FilterAppend<T(!new)>(a: seq<T>, b: seq<T>, keep: T -> bool)
    ensures Filter(a + b, keep) == Filter(a, keep) + Filter(b, keep)
  {
    if a == [] {
      assert a + b == b;
    } else {
      assert (a + b)[1..] == a[1..] + b;
      FilterAppend(a[1..], b, keep);
    }
  }

  /** A filter that keeps everything returns the list itself. */
  lemma {:induction false} FilterAll<T(!new)>(xs: seq<T>, keep: T -> bool)
    requires forall x :: x in xs ==> keep(x)
    ensures Filter(xs, keep) == xs
  {
    if xs != [] {
      FilterAll(xs[1..], keep);
    }
  }

  /** A filter and its complement split the list: their lengths add up to its length. */
  lemma {:induction false} FilterPartition<T(!new)>(xs: seq<T>, keep: T -> bool, drop: T -> bool)
    requires forall x :: x in xs ==> drop(x) == !keep(x)
    ensures |Filter(xs, keep)| + |Filter(xs, drop)| == |xs|
  {
    if xs != [] {
      FilterPartition(xs[1..], keep, drop);
    }
  }

  /** `xs.filter(x => key(x) !== k)`: delete-by-id. */
  function Without<T(!new), K(==)>(xs: seq<T>, key: T -> K, k: K): (r: seq<T>)
    ensures |r| <= |xs|
    ensures forall x :: x in r <==> x in xs && key(x) != k
  {
    Filter(xs, x => key(x) != k)
  }

  /** Deleting an id that no element carries changes nothing. */
  lemma WithoutAbsent<T(!new), K>(xs: seq<T>, key: T -> K, k: K)
    requires forall x :: x in xs ==> key(x) != k
    ensures Without(xs, key, k) == xs
  {
    FilterAll(xs, x => key(x) != k);
  }

  /** Deleting from a concatenation deletes from each part and keeps the parts in order. */
  lemma WithoutAppend<T(!new), K>(a: seq<T>, b: seq<T>, key: T -> K, k: K)
    ensures Without(a + b, key, k) == Without(a, key, k) + Without(b, key, k)
  {
    FilterAppend(a, b, x => key(x) != k);
  }

  /** Deleting the same id twice deletes nothing more. */
  lemma WithoutIdempotent<T(!new), K>(xs: seq<T>, key: T -> K, k: K)
    ensures Without(Without(xs, key, k), key, k) == Without(xs, key, k)
  {
    WithoutAbsent(Without(xs, key, k), key, k);
  }

  /** `xs.map(x => key(x) === k ? row : x)`: replace-by-id. */
  function ReplaceWhere<T, K(==)>(xs: seq<T>, key: T -> K, k: K, row: T): (r: seq<T>)
    ensures |r| == |xs|
    ensures forall i :: 0 <= i < |xs| ==> r[i] == if key(xs[i]) == k then row else xs[i]
  {
    if xs == [] then []
    else [if key(xs[0]) == k then row else xs[0]] + ReplaceWhere(xs[1..], key, k, row)
  }

  /**
   * Replacing the rows with id `k` by a row carrying the same id touches nothing else:
   * the rows with other ids are the same rows, in the same order.
   */
  lemma {:induction false} ReplaceKeepsOthers<T(!new), K>(xs: seq<T>, key: T -> K, k: K, row: T)
    requires key(row) == k
    ensures Without(ReplaceWhere(xs, key, k, row), key, k) == Without(xs, key, k)
  {
    if xs != [] {
      var r := ReplaceWhere(xs, key, k, row);
      assert r == [r[0]] + ReplaceWhere(xs[1..], key, k, row);
      assert xs == [xs[0]] + xs[1..];
      WithoutAppend([r[0]], ReplaceWhere(xs[1..], key, k, row), key, k);
      WithoutAppend([xs[0]], xs[1..], key, k);
      ReplaceKeepsOthers(xs[1..], key, k, row);
    }
  }

  /** Ascending by `key`. */
  ghost predicate SortedBy<T>(xs: seq<T>, key: T -> int) {
    forall i, j :: 0 <= i < j < |xs| ==> key(xs[i]) <= key(xs[j])
  }

  /**
   * Where the step of a stable insertion sort places `x`: after every leading element
   * whose key is at most `key(x)`, before the first one whose key is greater.
   */
  function InsertionPoint<T>(x: T, xs: seq<T>, key: T -> int): (k: nat)
    ensures k <= |xs|
    ensures forall i :: 0 <= i < k ==> key(xs[i]) <= key(x)
    ensures k < |xs| ==> key(x) < key(xs[k])
  {
    if xs == [] || key(x) < key(xs[0]) then 0 else 1 + InsertionPoint(x, xs[1..], key)
  }

  /** Inserts `x` at its insertion point; a sorted list stays sorted and gains exactly `x`. */
  function Insert<T>(x: T, xs: seq<T>, key: T -> int): (r: seq<T>)
    ensures |r| == |xs| + 1
    ensures multiset(r) == multiset(xs) + multiset{x}
    ensures SortedBy(xs, key) ==> SortedBy(r, key)
  {
    var k := InsertionPoint(x, xs, key);
    SplitAt(xs, k);
    InsertKeepsSorted(x, xs, key, k);
    xs[..k] + [x] + xs[k..]
  }

  lemma InsertKeepsSorted<T>(x: T, xs: seq<T>, key: T -> int, k: nat)
    requires k == InsertionPoint(x, xs, key)
    ensures SortedBy(xs, key) ==> SortedBy(xs[..k] + [x] + xs[k..], key)
  {
    if SortedBy(xs, key) {
      var r := xs[..k] + [x] + xs[k..];
      forall i, j | 0 <= i < j < |r| ensures key(r[i]) <= key(r[j]) {
        if j < k {
          assert r[i] == xs[i] && r[j] == xs[j];
        } else if j == k {
          assert r[i] == xs[i];
        } else if i == k {
          assert r[j] == xs[j - 1];
          assert key(x) < key(xs[k]);
        } else if i < k {
          assert r[i] == xs[i] && r[j] == xs[j - 1];
        } else {
          assert r[i] == xs[i - 1] && r[j] == xs[j - 1];
        }
      }
    }
  }

  /**
   * `xs.sort((a, b) => key(a) - key(b))`. JavaScript's sort is stable, so this is an
   * insertion sort that places each element after the equal keys before it.
   */
  function SortBy<T>(xs: seq<T>, key: T -> int): (r: seq<T>)
    ensures |r| == |xs|
    ensures multiset(r) == multiset(xs)
    ensures SortedBy(r, key)
  {
    if xs == [] then []
    else
      SplitLast(xs);
      Insert(xs[|xs| - 1], SortBy(xs[..|xs| - 1], key), key)
  }

  /** Sorting a list that is already sorted returns it unchanged. */
  lemma {:induction false} SortSorted<T>(xs: seq<T>, key: T -> int)
    requires SortedBy(xs, key)
    ensures SortBy(xs, key) == xs
  {
    if xs != [] {
      var init, last := xs[..|xs| - 1], xs[|xs| - 1];
      forall i, j | 0 <= i < j < |init| ensures key(init[i]) <= key(init[j]) {
        assert init[i] == xs[i] && init[j] == xs[j];
      }
      SortSorted(init, key);
      forall i | 0 <= i < |init| ensures key(init[i]) <= key(last) {
        assert init[i] == xs[i];
      }
      InsertAtEnd(last, init, key);
      SplitLast(xs);
    }
  }

  lemma SplitAt<T>(xs: seq<T>, k: nat)
    requires k <= |xs|
    ensures xs == xs[..k] + xs[k..]
  {
  }

  lemma SplitLast<T>(xs: seq<T>)
    requires xs != []
    ensures xs == xs[..|xs| - 1] + [xs[|xs| - 1]]
  {
  }

  /** An element no smaller than every key goes to the end. */
  lemma {:induction false} InsertAtEnd<T>(x: T, xs: seq<T>, key: T -> int)
    requires forall i :: 0 <= i < |xs| ==> key(xs[i]) <= key(x)
    ensures Insert(x, xs, key) == xs + [x]
  {
    PointAtEnd(x, xs, key);
    assert xs[..|xs|] == xs;
  }

  lemma {:induction false} PointAtEnd<T>(x: T, xs: seq<T>, key: T -> int)
    requires forall i :: 0 <= i < |xs| ==> key(xs[i]) <= key(x)
    ensures InsertionPoint(x, xs, key) == |xs|
  {
    if xs != [] {
      PointAtEnd(x, xs[1..], key);
    }
  }

  /** Filtering keeps a sorted list sorted. */
  lemma {:induction false} FilterKeepsSorted<T(!new)>(xs: seq<T>, keep: T -> bool, key: T -> int)
    requires SortedBy(xs, key)
    ensures SortedBy(Filter(xs, keep), key)
  {
    if xs != [] {
      var rest := xs[1..];
      forall i, j | 0 <= i < j < |rest| ensures key(rest[i]) <= key(rest[j]) {
        assert rest[i] == xs[i + 1] && rest[j] == xs[j + 1];
      }
      FilterKeepsSorted(rest, keep, key);
      if keep(xs[0]) {
        var r := [xs[0]] + Filter(rest, keep);
        forall i, j | 0 <= i < j < |r| ensures key(r[i]) <= key(r[j]) {
          if i == 0 {
            assert r[j] in rest;
            var m :| 0 <= m < |rest| && rest[m] == r[j];
            assert xs[m + 1] == r[j];
          } else {
            assert r[i] == Filter(rest, keep)[i - 1] && r[j] == Filter(rest, keep)[j - 1];
          }
        }
      }
    }
  }

  /** Deleting by id keeps a sorted list sorted. */
  lemma WithoutKeepsSorted<T(!new), K>(xs: seq<T>, key: T -> K, k: K, order: T -> int)
    requires SortedBy(xs, order)
    ensures SortedBy(Without(xs, key, k), order)
  {
    FilterKeepsSorted(xs, x => key(x) != k, order);
  }

  /** Adding one element to a sorted list and sorting the result inserts that element. */
  lemma AppendThenSort<T>(xs: seq<T>, x: T, key: T -> int)
    requires SortedBy(xs, key)
    ensures SortBy(xs + [x], key) == Insert(x, xs, key)
  {
    assert (xs + [x])[..|xs|] == xs;
    SortSorted(xs, key);
  }
}

=== FILE: notes_page.dfy ===
/**
 * The Smart Notes page (`src/pages/NotesPage.jsx`): the in-memory list of notes, newest
 * first, the text of the note being written and whether its dialog is open.
 */
module NotesPage {
  import opened Options
  import opened Text
  import opened Lists
  import opened Store

  /** A row of `smart_notes`. `source` is `manual` or `chat`. */
  datatype Note = Note(id: Id, content: string, source: string, createdAt: Time)

  /** The row `addNote` asks the store to insert. */
  datatype NewNote = NewNote(content: string, source: string)

  function NoteId(n: Note): Id { n.id }

  /** The note a non-blank draft becomes: trimmed, and marked as written by hand. */
  function Drafted(text: string): (r: Option<NewNote>)
    ensures r.None? <==> Blank(text)
    ensures r.Some? ==> r.value.source == "manual" && r.value.content != []
    ensures r.Some? ==> !IsSpace(r.value.content[0]) && !IsSpace(r.value.content[|r.value.content| - 1])
    ensures r.Some? ==> r.value.content == Trim(text)
  {
    var content := Trim(text);
    if content == [] then None else Some(NewNote(content, "manual"))
  }

  /** A note is added to the front: the newest note first, the others after it in order. */
  function Prepend(row: Note, notes: seq<Note>): (r: seq<Note>)
    ensures |r| == |notes| + 1 && r[0] == row && r[1..] == notes
  {
    [row] + notes
  }

  /** Deleting the note just added gives back the list before it, when its id was new. */
  lemma DeleteUndoesAdd(row: Note, notes: seq<Note>)
    requires forall n :: n in notes ==> n.id != row.id
    ensures Without(Prepend(row, notes), NoteId, row.id) == notes
  {
    WithoutAppend([row], notes, NoteId, row.id);
    assert Without([row], NoteId, row.id) == [];
    WithoutAbsent(notes, NoteId, row.id);
  }

  class Notes {
    var notes: seq<Note>
    var showModal: bool
    var newNote: string

    constructor ()
      ensures notes == [] && !showModal && newNote == ""
    {
      notes := [];
      showModal := false;
      newNote := "";
    }

    /**
     * `addNote`: a blank draft is ignored. Otherwise the trimmed text is sent as a manual
     * note; when the store returns the row, it goes to the front of the list, the draft
     * is cleared and the dialog closed, and when it does not, nothing changes.
     */
    method AddNote(inserted: Option<Note>) returns (request: Option<NewNote>)
      modifies this
      ensures request == Drafted(old(newNote))
      ensures request.Some? && inserted.Some? ==>
        notes == Prepend(inserted.value, old(notes)) && newNote == "" && !showModal
      ensures request.None? || inserted.None? ==>
        notes == old(notes) && newNote == old(newNote) && showModal == old(showModal)
    {
      request := Drafted(newNote);
      if request.None? {
        return;
      }
      if inserted.Some? {
        notes := Prepend(inserted.value, notes);
        newNote := "";
        showModal := false;
      }
    }

    /** `deleteNote`: the notes with that id go, the others stay in their order. */
    method DeleteNote(id: Id)
      modifies this
      ensures notes == Without(old(notes), NoteId, id)
      ensures showModal == old(showModal) && newNote == old(newNote)
    {
      notes := Without(notes, NoteId, id);
    }
  }
}

=== FILE: options.dfy ===
/** An optional value: what JavaScript expresses with `null`, `undefined` or a missing field. */
module Options {
  datatype Option<+T> = None | Some(value: T)
}

=== FILE: reminders_page.dfy ===
/**
 * The Reminders page (`src/pages/RemindersPage.jsx`): the in-memory list of reminders in
 * ascending order of time, the form of a new reminder, the dialog flag and the filter
 * that chooses which reminders are shown.
 */
module RemindersPage {
  import opened Options
  import opened Text
  import opened Lists
  import opened Store

  /** A row of `reminders`. */
  datatype Reminder = Reminder(id: Id, content: string, remindAt: Time, isDone: bool)

  /** The form: the text, and the time picked (`None` while the time field is empty). */
  datatype ReminderForm = ReminderForm(content: string, remindAt: Option<Time>)

  /** The row `addReminder` asks the store to insert. */
  datatype NewReminder = NewReminder(content: string, remindAt: Time)

  /** The three filter buttons. */
  datatype Show = Active | Done | All

  const EmptyForm: ReminderForm := ReminderForm("", None)

  function ReminderId(r: Reminder): Id { r.id }
  function RemindAt(r: Reminder): int { r.remindAt }

  /** What `addReminder` sends: nothing without a text or a time, else the trimmed text. */
  function AddRequest(form: ReminderForm): (r: Option<NewReminder>)
    ensures r.None? <==> Blank(form.content) || form.remindAt.None?
    ensures r.Some? ==> r.value.content == Trim(form.content) && r.value.content != []
    ensures r.Some? ==> r.value.remindAt == form.remindAt.value
  {
    if Trim(form.content) == [] || form.remindAt.None? then None
    else Some(NewReminder(Trim(form.content), form.remindAt.value))
  }

  /** Whether a reminder passes the filter. */
  predicate Shown(show: Show, r: Reminder) {
    match show
    case Active => !r.isDone
    case Done => r.isDone
    case All => true
  }

  /** The `filtered` view: the reminders the filter lets through, in list order. */
  function Visible(reminders: seq<Reminder>, show: Show): (r: seq<Reminder>)
    ensures forall x :: x in r <==> x in reminders && Shown(show, x)
  {
    Filter(reminders, x => Shown(show, x))
  }

  /** The active and the done views split the list between them; `all` shows every reminder. */
  lemma ViewsPartition(reminders: seq<Reminder>)
    ensures |Visible(reminders, Active)| + |Visible(reminders, Done)| == |reminders|
    ensures Visible(reminders, All) == reminders
  {
    FilterPartition(reminders, x => Shown(Active, x), x => Shown(Done, x));
    FilterAll(reminders, x => Shown(All, x));
  }

  /** The header's `<n> active`: the reminders not done. */
  function ActiveCount(reminders: seq<Reminder>): (n: nat)
    ensures n <= |reminders|
    ensures n == |reminders| - |Visible(reminders, Done)|
  {
    ViewsPartition(reminders);
    |Visible(reminders, Active)|
  }

  /** A reminder is overdue when it is not done and its time has passed. */
  predicate IsOverdue(r: Reminder, now: Time) {
    !r.isDone && r.remindAt < now
  }

  /** Overdue reminders show under `active`, never under `done`. */
  lemma OverdueIsActive(reminders: seq<Reminder>, r: Reminder, now: Time)
    requires r in reminders && IsOverdue(r, now)
    ensures r in Visible(reminders, Active) && r !in Visible(reminders, Done)
  {
  }

  /**
   * The list after adding: the old list and the new row, sorted by time. On a sorted list
   * this inserts the row after the reminders due no later than it.
   */
  lemma AddInsertsInOrder(reminders: seq<Reminder>, row: Reminder)
    requires SortedBy(reminders, RemindAt)
    ensures SortBy(reminders + [row], RemindAt) == Insert(row, reminders, RemindAt)
  {
    AppendThenSort(reminders, row, RemindAt);
  }

  class Reminders {
    var reminders: seq<Reminder>
    var showModal: bool
    var form: ReminderForm
    var show: Show

    constructor ()
      ensures reminders == [] && !showModal && form == EmptyForm && show == Active
    {
      reminders := [];
      showModal := false;
      form := EmptyForm;
      show := Active;
    }

    /**
     * `addReminder`: without a text or a time nothing happens. Otherwise the trimmed text
     * and the time are sent; a returned row joins the list, which is sorted by time again,
     * and the form is reset and the dialog closed. Without a row nothing changes.
     */
    method AddReminder(inserted: Option<Reminder>) returns (request: Option<NewReminder>)
      modifies this
      ensures show == old(show)
      ensures request == AddRequest(old(form))
      ensures request.Some? && inserted.Some? ==>
        && reminders == SortBy(old(reminders) + [inserted.value], RemindAt)
        && form == EmptyForm && !showModal
      ensures request.None? || inserted.None? ==>
        reminders == old(reminders) && form == old(form) && showModal == old(showModal)
    {
      request := AddRequest(form);
      if request.None? {
        return;
      }
      if inserted.Some? {
        reminders := SortBy(reminders + [inserted.value], RemindAt);
        form := EmptyForm;
        showModal := false;
      }
    }

    /**
     * `toggleDone(id, currentDone)`: asks to flip the flag; a returned row replaces the
     * reminders with that id, and without one nothing changes.
     */
    method ToggleDone(id: Id, currentDone: bool, updated: Option<Reminder>) returns (newDone: bool)
      modifies this
      ensures newDone == !currentDone
      ensures updated.Some? ==> reminders == ReplaceWhere(old(reminders), ReminderId, id, updated.value)
      ensures updated.None? ==> reminders == old(reminders)
      ensures form == old(form) && showModal == old(showModal) && show == old(show)
    {
      newDone := !currentDone;
      if updated.Some? {
        reminders := ReplaceWhere(reminders, ReminderId, id, updated.value);
      }
    }

    /** `deleteReminder`: the reminders with that id go; the rest stay, still in time order. */
    method DeleteReminder(id: Id)
      modifies this
      ensures reminders == Without(old(reminders), ReminderId, id)
      ensures SortedBy(old(reminders), RemindAt) ==> SortedBy(reminders, RemindAt)
      ensures form == old(form) && showModal == old(showModal) && show == old(show)
    {
      if SortedBy(reminders, RemindAt) {
        WithoutKeepsSorted(reminders, ReminderId, id, RemindAt);
      }
      reminders := Without(reminders, ReminderId, id);
    }
  }
}

=== FILE: store.dfy ===
/**
 * The backend the pages talk to, as far as the model needs it. Every store call is
 * either left out (its answer is ignored by the code) or becomes a parameter holding its
 * answer: `Some(row)` when the call returned a row without error, `None` otherwise.
 */
module Store {
  /** Row identifiers: the UUIDs the database or `crypto.randomUUID` hands out. */
  type Id = string

  /** A point in time, in milliseconds; the model only compares them. */
  type Time = int
}

=== FILE: text.dfy ===
/**
 * The string primitives the assistant relies on, with JavaScript's meaning:
 * `trim`, the regular-expression class `\s`, `toLowerCase` (ASCII letters only),
 * `includes`, `startsWith` and `slice(0, n)`.
 */
module Text {
  import opened Options

  /** JavaScript white space and line terminators: the set `trim` strips and `\s` matches. */
  predicate IsSpace(c: char) {
    || c == ' ' || c == '\t' || c == '\n' || c == '\r'
    || c == '\U{000B}' || c == '\U{000C}' || c == '\U{00A0}' || c == '\U{1680}'
    || ('\U{2000}' <= c <= '\U{200A}')
    || c == '\U{2028}' || c == '\U{2029}' || c == '\U{202F}' || c == '\U{205F}'
    || c == '\U{3000}' || c == '\U{FEFF}'
  }

  /** A string that is empty or made only of white space: JavaScript's `!s.trim()`. */
  predicate Blank(s: string) {
    forall i {:trigger IsSpace(s[i])} :: 0 <= i < |s| ==> IsSpace(s[i])
  }

  /** `String.prototype.toLowerCase` restricted to ASCII letters. */
  function LowerChar(c: char): char {
    if 'A' <= c <= 'Z' then (c as int + 32) as char else c
  }

  /**
   * Lower-casing character by character. The contract is definitional: it is the
   * pointwise form the lemmas about matching use, and `ToLowerIdempotent` is its property.
   */
  function ToLower(s: string): (r: string)
    ensures |r| == |s|
    ensures forall i {:trigger r[i]} :: 0 <= i < |s| ==> r[i] == LowerChar(s[i])
  {
    seq(|s|, i requires 0 <= i < |s| => LowerChar(s[i]))
  }

  lemma ToLowerSlice(s: string, i: nat, j: nat)
    requires i <= j <= |s|
    ensures ToLower(s)[i..j] == ToLower(s[i..j])
  {
  }

  lemma ToLowerIdempotent(s: string)
    ensures ToLower(ToLower(s)) == ToLower(s)
  {
  }

  /** How many white-space characters `s` starts with. */
  function LeadingSpaces(s: string): (n: nat)
    ensures n <= |s|
    ensures forall i {:trigger IsSpace(s[i])} :: 0 <= i < n ==> IsSpace(s[i])
    ensures n < |s| ==> !IsSpace(s[n])
  {
    if s != [] && IsSpace(s[0]) then 1 + LeadingSpaces(s[1..]) else 0
  }

  /** How many white-space characters `s` ends with. */
  function TrailingSpaces(s: string): (n: nat)
    ensures n <= |s|
    ensures forall i {:trigger IsSpace(s[i])} :: |s| - n <= i < |s| ==> IsSpace(s[i])
    ensures n < |s| ==> !IsSpace(s[|s| - n - 1])
  {
    if s != [] && IsSpace(s[|s| - 1]) then 1 + TrailingSpaces(s[..|s| - 1]) else 0
  }

  /**
   * `String.prototype.trim`: the infix of `s` left once white space is removed from
   * both ends. Everything removed is white space, what is kept neither starts nor ends
   * with white space, and nothing is left exactly when `s` is blank.
   */
  function Trim(s: string): (r: string)
    ensures |r| <= |s|
    ensures var lo := LeadingSpaces(s);
      && lo + |r| <= |s|
      && r == s[lo..lo + |r|]
      && (forall i {:trigger IsSpace(s[i])} :: 0 <= i < lo ==> IsSpace(s[i]))
      && (forall i {:trigger IsSpace(s[i])} :: lo + |r| <= i < |s| ==> IsSpace(s[i]))
    ensures r != [] ==> !IsSpace(r[0]) && !IsSpace(r[|r| - 1])
    ensures r == [] <==> Blank(s)
  {
    var lo := LeadingSpaces(s);
    if lo == |s| then []
    else
      var hi := |s| - TrailingSpaces(s);
      s[lo..hi]
  }

  lemma TrimIdempotent(s: string)
    ensures Trim(Trim(s)) == Trim(s)
  {
    var r := Trim(s);
    if r != [] {
      assert LeadingSpaces(r) == 0;
      assert TrailingSpaces(r) == 0;
    }
  }

  /** `p` is a prefix of `s`, compared character by character. */
  predicate IsPrefix(p: string, s: string) {
    |p| == 0 || (|s| > 0 && p[0] == s[0] && IsPrefix(p[1..], s[1..]))
  }

  /** The character-by-character comparison is the comparison of `p` with the front of `s`. */
  lemma {:induction false} IsPrefixSlice(p: string, s: string)
    ensures IsPrefix(p, s) <==> |p| <= |s| && s[..|p|] == p
  {
    if |p| > 0 && |s| > 0 {
      IsPrefixSlice(p[1..], s[1..]);
      if |p| <= |s| && s[..|p|] == p {
        assert s[1..][..|p| - 1] == s[..|p|][1..];
      }
      if IsPrefix(p, s) {
        assert s[..|p|] == [s[0]] + s[1..][..|p| - 1];
        assert p == [p[0]] + p[1..];
      }
    }
  }

  /** `p` occurs in `s` at position `i`. */
  predicate OccursAt(s: string, p: string, i: int) {
    0 <= i && i + |p| <= |s| && IsPrefix(p, s[i..])
  }

  /** An occurrence is a slice of `s` equal to `p`. */
  lemma OccursAtSlice(s: string, p: string, i: int)
    ensures OccursAt(s, p, i) <==> 0 <= i && i + |p| <= |s| && s[i..i + |p|] == p
  {
    if 0 <= i && i + |p| <= |s| {
      IsPrefixSlice(p, s[i..]);
      assert s[i..][..|p|] == s[i..i + |p|];
    }
  }

  /** The first position at or after `k` where `p` occurs in `s`, if any. */
  function IndexOfFrom(s: string, p: string, k: nat): (r: Option<nat>)
    requires k <= |s|
    ensures r.Some? ==> k <= r.value && OccursAt(s, p, r.value)
    ensures r.Some? ==> forall j :: k <= j < r.value ==> !OccursAt(s, p, j)
    ensures r.None? ==> forall j :: k <= j ==> !OccursAt(s, p, j)
    decreases |s| - k
  {
    if OccursAt(s, p, k) then Some(k)
    else if k == |s| then None
    else IndexOfFrom(s, p, k + 1)
  }

  /** `String.prototype.indexOf`, with `None` for -1. */
  function IndexOf(s: string, p: string): (r: Option<nat>)
    ensures r.Some? ==> r.value + |p| <= |s|
    ensures r.Some? ==> OccursAt(s, p, r.value) && forall j :: 0 <= j < r.value ==> !OccursAt(s, p, j)
    ensures r.None? <==> forall j :: !OccursAt(s, p, j)
  {
    IndexOfFrom(s, p, 0)
  }

  /** `String.prototype.includes`. */
  predicate Contains(s: string, p: string) {
    IndexOf(s, p).Some?
  }

  lemma ContainsAt(s: string, p: string, i: int)
    requires OccursAt(s, p, i)
    ensures Contains(s, p)
  {
  }

  /** Whatever a string contains, any string built around it contains too. */
  lemma ContainsInfix(a: string, b: string, c: string)
    ensures Contains(a + b + c, b)
  {
    assert (a + b + c)[|a|..|a| + |b|] == b;
    OccursAtSlice(a + b + c, b, |a|);
    ContainsAt(a + b + c, b, |a|);
  }

  /** `String.prototype.startsWith`. */
  predicate StartsWith(s: string, p: string) {
    |p| <= |s| && s[..|p|] == p
  }

  /** `s.slice(0, n)`: the first `n` characters, or all of `s` when it is shorter. */
  function Take(s: string, n: nat): (r: string)
    ensures |r| <= n && |r| <= |s|
    ensures |s| <= n ==> r == s
    ensures |s| > n ==> |r| == n
    ensures StartsWith(s, r)
  {
    if |s| <= n then s else s[..n]
  }

  /** JavaScript's `a || b` on strings: the empty string is falsy. */
  function OrElse(s: string, fallback: string): string {
    if s == "" then fallback else s
  }

  /**
   * The decimal rendering of a natural number, as template literals print it: digits
   * without a leading zero, read back as `n` itself.
   */
  function Decimal(n: nat): (r: string)
    ensures r != []
    ensures forall i :: 0 <= i < |r| ==> '0' <= r[i] <= '9'
    ensures |r| > 1 ==> r[0] != '0'
    ensures DigitsValue(r) == n
  {
    if n < 10 then [DigitChar(n)]
    else
      var r := Decimal(n / 10) + [DigitChar(n % 10)];
      assert r[..|r| - 1] == Decimal(n / 10);
      r
  }

  /** The number a string of decimal digits denotes, most significant digit first. */
  function DigitsValue(s: string): nat
    requires forall i :: 0 <= i < |s| ==> '0' <= s[i] <= '9'
  {
    if s == [] then 0 else 10 * DigitsValue(s[..|s| - 1]) + (s[|s| - 1] as int - '0' as int)
  }

  function DigitChar(d: nat): (c: char)
    requires d < 10
    ensures '0' <= c <= '9'
  {
    ('0' as int + d) as char
  }
}
